=== FILE: README.md ===
# SAT admissions scraper — a verified model of its core

The scraper walks the college listing pages of the National Center for
Education Statistics College Navigator one state at a time. It opens every
other college link on a listing page. On each college page it expands the
admissions panel, reads the college name and the SAT percentile rows, and
adds the two sub-scores of each percentile into a total. It stores one row
per college name in an SQLite table, where the first row stored under a name
is kept.

This project models that core in Dafny and proves properties of the model.

| file | module | models |
|---|---|---|
| `failures.dfy` | `Failures` | `Option`, the error conditions and a `Result` that propagates them |
| `scores.dfy` | `Scores` | `convert_score`, `calculate_total_sat`, Python's `str.strip()` and `int()` |
| `extraction.dfy` | `Extraction` | `extract_college_name`, `extract_sat_scores` |
| `storage.dfy` | `Storage` | `store_in_database` and the `college_scores` table |
| `crawl.dfy` | `Crawl` | the stride and page loops of `scrape_college_data` |

Modelling choices:

- **Uncaught exceptions.** The program can raise a `ValueError` in two places, and nothing in it catches either. The `try` in `scrape_college_data` handles only `NoSuchElementException`, and `main` has no handler at all. Each becomes an `Err` value carrying one of these `Failures.Error` cases:
  - `MalformedScore`: `int()` rejected the text.
  - `UnpackMismatch`: a matched row did not unpack into three cells.
- **A listing that runs out.** The model's listing is finite, and the program has no counterpart for running past its end. A crawl that asks for a page after the last modelled page, because every page so far showed a next-page link, ends with `PageUnavailable`.
- **Score text.** Whitespace is exactly the character set of Python's `str.isspace()`. The model's `int()` accepts an optional `+` or `-` sign followed by at least one ASCII digit, with no bound on the number of digits. CPython 3.11 and later refuse more than 4300 digits (see `Scores.ParseInt` under "## Left out").
- **Parsed college page.** A `Document` holds the text of the `headerlg` span, if there is one. It also holds the `tabular` tables in document order. Each table row carries its whole text and the texts of its `td` cells. The model does not tie the two together: in bs4, `row.text` includes the text of every cell, the first one too, but `Row.text` is a separate field.
- **The browser.** A `Listing` is a sequence of `ListingPage`s. Each page holds its anchors, each being the `Detail` page it leads to, and says whether it shows a "Next Page" link.
- **The crawl result.** `Crawl.Crawl` holds three things: the table, the anchors opened in order, and the error that stopped the crawl, if any. Rows committed before an error stay in the table, as they do in the database.
- **The table.** `college_scores` is a sequence of rows in insertion order. `store_in_database` returns nothing. Whether it inserted is whether the name was absent, `d.name !in Names(t)`.

Facts about the code that the model keeps:

- **Repeated matching rows.** Every later matching row overwrites the sub-scores of an earlier one, so the last row of each kind is used.
- **When a total is "No Data".** A total is "No Data" when either sub-score row is missing, because the missing row leaves all three of its sub-scores at "No Data".
- **Misshapen rows.** A matched row without exactly three data cells raises the unpacking `ValueError`.
- **Malformed scores.** Score text that `int()` rejects raises a `ValueError`. It passes through the `finally` of `scrape_college_data` and through `main` (satAdmissionsScrapper.py:274-281), so the whole run ends. States after the current one are not crawled and `driver.quit()` is not reached. Rows committed before the error stay in the database.

## Model

| member | source | states |
|---|---|---|
| Scores.ParseInt | satAdmissionsScrapper.py:43 | `int()` succeeds exactly on an optionally signed run of ASCII digits of any length; the value is the digits' value, negated after `-` and unchanged after `+` or with no sign; otherwise the error carries the rejected text |
| Scores.RemoveCommas | satAdmissionsScrapper.py:43 | the result holds no comma, text without commas comes back unchanged, and the result is never longer; `RemoveCommasChar` and `RemoveCommasAppend` state that every other character is kept, in order |
| Scores.RemoveCommasChar | satAdmissionsScrapper.py:43 | on one character, `replace(',', '')` drops a comma and keeps anything else |
| Scores.RemoveCommasAppend | satAdmissionsScrapper.py:43 | comma deletion on two texts joined is comma deletion on each, joined; with `RemoveCommasChar` this fixes the result on every text |
| Scores.Strip | satAdmissionsScrapper.py:43 | the result is no longer than the input and neither starts nor ends with whitespace; `StripSpec` states that it is the input with its padding cut off |
| Scores.SeparatorsRemoved | satAdmissionsScrapper.py:43 | deleting the commas from a number written with thousands separators leaves its plain decimal digits |
| Scores.StripSpec | satAdmissionsScrapper.py:43 | `strip()` returns the slice of its input that has only whitespace on either side and neither starts nor ends with whitespace |
| Scores.StripPadded | satAdmissionsScrapper.py:43 | trimming a core that neither starts nor ends with whitespace, padded by whitespace, gives back exactly the core |
| Scores.ConvertScore | satAdmissionsScrapper.py:30-43 | conversion fails only with the parse error; `ConvertScoreRoundTrip`, `ConvertScorePlain`, `ConvertScoreNegative` and `ConvertScoreRejects` state which texts it accepts and with what value |
| Scores.ConvertScoreRoundTrip | satAdmissionsScrapper.py:30-43 | any natural number written with thousands separators and padded by whitespace converts back to itself ("1,200" and " 1,200 " give 1200) |
| Scores.ConvertScorePlain | satAdmissionsScrapper.py:30-43 | a plain decimal number padded by whitespace converts back to itself (" 1200 " gives 1200) |
| Scores.ConvertScoreNegative | satAdmissionsScrapper.py:43 | a minus sign before a separated number survives comma deletion and trimming and negates the value |
| Scores.ConvertScoreRejects | satAdmissionsScrapper.py:43 | the empty text, a lone comma and a lone sign are rejected with the parse error, never defaulted |
| Scores.ConvertScoreRejectsSentinel | satAdmissionsScrapper.py:43 | the text "No Data" itself does not convert, so the sentinel must be checked before conversion |
| Scores.ConvertScoreExamples | satAdmissionsScrapper.py:43 | `convert_score` reads "1,200" and " 1200 " alike, as 1200 |
| Scores.CalculateTotal | satAdmissionsScrapper.py:189-208 | either sub-score being "No Data" gives "No Data" without parsing; otherwise the total is the sum of both conversions and fails exactly when a conversion fails |
| Scores.CalculateTotalOfRendered | satAdmissionsScrapper.py:205-206 | two rendered numbers combine into the sum of the numbers they render |
| Scores.CalculateTotalExample | satAdmissionsScrapper.py:205-206 | "700" and "700" combine into 1400 |
| Scores.CalculateTotalRejects | satAdmissionsScrapper.py:205-207 | when neither sub-score is "No Data" and one of them does not convert, the total fails with the parse error |
| Extraction.ExtractCollegeName | satAdmissionsScrapper.py:144-145 | without the header span the name is "Unknown College"; with it, the name is no longer than the span's text and neither starts nor ends with whitespace; `CollegeNameSpec` states it is the trimmed text |
| Extraction.CollegeNameSpec | satAdmissionsScrapper.py:144-145 | with the header span the name is its text with only surrounding whitespace removed; without the span it is "Unknown College" |
| Extraction.CollegeNamePadded | satAdmissionsScrapper.py:145 | a header holding a name padded by whitespace yields exactly that name |
| Extraction.ContainsSpec | satAdmissionsScrapper.py:172-174 | the label test is substring search: it holds exactly when the label occurs at some position of the row text |
| Extraction.DataCells | satAdmissionsScrapper.py:173 | the cells after the first unpack into three values exactly when the row has four cells; otherwise the unpacking error reports how many there were |
| Extraction.ScanRow | satAdmissionsScrapper.py:172-175 | a row is accepted exactly when it matches neither label or has four cells, and is otherwise rejected with the unpacking error; an accepted row replaces the sub-scores of the kind it matches, a reading/writing row is never a math row, and the other kind keeps its value |
| Extraction.ScanRows | satAdmissionsScrapper.py:171-175 | the row loop fails only with the unpacking error |
| Extraction.ScanRowsSpec | satAdmissionsScrapper.py:165-175 | the row scan succeeds exactly when every matched row has four cells; each sub-score is then the data of the last row of its kind, a reading/writing row is never a math row, and a kind without a row keeps its prior value |
| Extraction.ScanTablesFlat | satAdmissionsScrapper.py:168-171 | scanning table by table is the same as scanning all rows in document order |
| Extraction.ScanTables | satAdmissionsScrapper.py:168-175 | the table loop fails only with the unpacking error; `ScanTablesFlat` states it is the row scan over all rows in document order |
| Extraction.CombineTotals | satAdmissionsScrapper.py:178-180 | the three totals succeed exactly when each column's `calculate_total_sat` succeeds, and each total is then its column's result; failure is only the parse error; a missing reading/writing or math row gives "No Data" in all three without parsing anything |
| Extraction.ExtractSatScores | satAdmissionsScrapper.py:164-186 | extraction fails only with the parse error or the unpacking error; `ExtractScan`, `ExtractMissingRow`, `ExtractColumns` and `ExtractRejectsMalformedCell` state what it returns |
| Extraction.ExtractScan | satAdmissionsScrapper.py:164-175 | on a whole page, scanning from "No Data" gives the last row of each kind, or "No Data" where there is none |
| Extraction.ExtractRejectsMisshapenRow | satAdmissionsScrapper.py:173-175 | a matched row without exactly three data cells makes extraction fail with the unpacking error |
| Extraction.ExtractColumns | satAdmissionsScrapper.py:164-186 | with both rows present, each total is `calculate_total_sat` of its column's cells from the last row of each kind, so a "No Data" cell gives "No Data" in that column, and extraction succeeds exactly when all three columns combine |
| Extraction.ExtractRejectsMalformedCell | satAdmissionsScrapper.py:178-180 | with both rows present, a column whose cells are not "No Data" but do not both convert makes extraction fail with the parse error |
| Extraction.ExtractMissingRow | satAdmissionsScrapper.py:165-180 | without a reading/writing row, or without a math row, all three totals are "No Data" |
| Extraction.ExtractColumnSums | satAdmissionsScrapper.py:172-186 | with both rows present and numeric, each percentile total is the sum of the two cells in its column, taken from the last row of each kind |
| Extraction.ExtractIgnoresFirstCell | satAdmissionsScrapper.py:173-175 | the first cell is never read as a score: pages whose rows have the same whole text and the same later cells extract alike |
| Storage.Lookup | satAdmissionsScrapper.py:242-243 | a row found for a name is a row of the table that carries that name |
| Storage.LookupFindsKnown | satAdmissionsScrapper.py:242-246 | the existence query finds a row exactly when the name is among the table's names |
| Storage.StoreInDatabase | satAdmissionsScrapper.py:236-251 | existing rows are never changed; the table grows by one row exactly when the name was absent; the name is present afterwards; the row under it is the earlier one if there was one, else the new record |
| Storage.StoreKeepsUnique | satAdmissionsScrapper.py:241-248 | storing keeps the table free of duplicate names |
| Storage.StoreLeavesExactlyOne | satAdmissionsScrapper.py:241-248 | after a store into a table with unique names, exactly one row carries the stored name |
| Storage.StoreIdempotent | satAdmissionsScrapper.py:246-251 | storing any record under a name already stored, the same record included, changes nothing |
| Storage.StoreLeavesOthers | satAdmissionsScrapper.py:246-248 | the rows under every other name, and what they look up to, are unchanged |
| Storage.StoreAllFirstWins | satAdmissionsScrapper.py:241-251 | storing records one after another leaves under each name the first record the table or the sequence offered |
| Storage.StoreAllKeepsUnique | satAdmissionsScrapper.py:241-251 | a sequence of stores keeps names unique and keeps every row already present |
| Crawl.ScrapeAnchor | satAdmissionsScrapper.py:78-102 | a page without the admissions panel leaves the table as it was; otherwise the call succeeds exactly when extraction does and fails with extraction's error; on success every earlier row is kept, the table grows by one row exactly when the page's college name was absent, that name is added to the names and looks up to its earlier row if it had one and else to the page's name and totals, and every other name looks up to what it did before |
| Crawl.ScrapePage | satAdmissionsScrapper.py:71-113 | a page keeps every row and every recorded visit it started with, and fails only with the parse error or the unpacking error; `PageSucceedsIff` states when it ends without error, and `PageStride`, `PageStoresRecords` and `PageStopsAtFailure` state what it visits and stores |
| Crawl.ScrapeFrom | satAdmissionsScrapper.py:64-126 | the crawl from a page keeps every row it started with; it ends without error only if some page from there on shows no next-page link, and asks past the listing only if none does; `CrawlSucceedsIff` states when it ends without error |
| Crawl.ScrapeCollegeData | satAdmissionsScrapper.py:64-126 | the crawl of a state from page 1 keeps every row it started with, ends without error only if some page lacks a next-page link, and asks past the listing only if none does; `CrawlSucceedsIff` with page 1 states when it ends without error |
| Crawl.Scrape | satAdmissionsScrapper.py:64-126 | the two nested loops compute exactly the recursive model of the crawl |
| Crawl.LastPage | satAdmissionsScrapper.py:116-126 | the page found is the first page from the start that shows no next-page link; when none is found, every page from the start on shows one |
| Crawl.PageStride | satAdmissionsScrapper.py:71-113 | a page read without error opens exactly the anchors at `i`, `i + 2`, … below the anchor count, in order |
| Crawl.PageOpensEvenIndices | satAdmissionsScrapper.py:71-113 | on a page of n anchors the crawl opens ⌈n/2⌉ anchors, and anchor j is opened exactly when j < n and j is even |
| Crawl.MissingPanelsSkipped | satAdmissionsScrapper.py:100-113 | when no anchor leads to an admissions panel, the page leaves the table unchanged and cannot fail, because the index still advances |
| Crawl.PageKeepsRows | satAdmissionsScrapper.py:71-113 | a page keeps every row it started with and keeps names unique |
| Crawl.PageStoresRecords | satAdmissionsScrapper.py:71-113 | a page read without error leaves the table its records produce when stored one after another |
| Crawl.PageFirstReadWins | satAdmissionsScrapper.py:86-98 | after a page, each name holds the first record the table or the page offered under it |
| Crawl.PageSucceedsIff | satAdmissionsScrapper.py:78-108 | a page ends without error exactly when every anchor its stride opens either lacks the panel or extracts without error |
| Crawl.PageStopsAtFailure | satAdmissionsScrapper.py:78-108 | a page fails exactly when some anchor its stride opens extracts with an error; it then stops at the first such anchor, having opened the stride up to and including it, and reports that anchor's error |
| Crawl.CrawlStopsAtLastPage | satAdmissionsScrapper.py:116-126 | no page after the first one without a next-page link influences the crawl |
| Crawl.UnavailableOnlyWithoutLastPage | satAdmissionsScrapper.py:64-67 | the crawl asks for a page past the listing only when every page shows a next-page link, and then asks for the page right after the last |
| Crawl.CrawlOpensEveryOtherAnchor | satAdmissionsScrapper.py:64-126 | a crawl without error opens, page after page up to the last page, exactly each page's even-indexed anchors |
| Crawl.CrawlSucceedsIff | satAdmissionsScrapper.py:64-126 | with a last page ahead, the crawl ends without error exactly when every page up to and including the last reads every anchor it opens without error |
| Crawl.CrawlStopsAtFailure | satAdmissionsScrapper.py:78-126 | when some anchor of a page fails to extract, the crawl fails and its result is that page's result, so no later page is opened; with `PageStopsAtFailure`, nothing after the failing anchor is opened and its error is the one reported |
| Crawl.CrawlWithoutPanels | satAdmissionsScrapper.py:100-126 | a crawl whose anchors never reach an admissions panel stores nothing and fails only when no page lacks a next-page link |
| Crawl.CrawlKeepsRows | satAdmissionsScrapper.py:64-126 | the crawl keeps every row it started with and keeps names unique |
| Crawl.TwoPageExample | satAdmissionsScrapper.py:64-126 | a first page of four anchors with a next-page link and a last page of two anchors open three anchors: 0 and 2 on page 1, then 0 on page 2 |

## Left out

- Selenium is not modelled: the browser, mouse moves, clicks, `driver.back()` and the `time.sleep` pauses. The listing is given as data, and each anchor as the detail page it leads to.
- The crawl assumes the anchor count of a listing page is stable. The program re-fetches the anchors after every visit; the model fixes each page's anchors up front.
- BeautifulSoup parsing is not modelled. The model starts from the header text and the tables' rows and cells.
- Nested tables are not modelled. Python's `find_all` also returns tables and rows nested inside others, so a nested row can be seen twice.
- sqlite3 mechanics are not modelled: connections, cursors, SQL text, commits and the database path. The table is a sequence of rows.
- `print` output, `main`, the `STATES` list and the URL template are left out. The model covers one state's crawl. In `main` the states are crawled one after another with the same table, and the first uncaught `ValueError` ends the loop over states, so `driver.quit()` is not reached (satAdmissionsScrapper.py:274-281).
- Navigation back to the listing is not modelled. The model assumes that every opened anchor returns to the same listing page after the two `driver.back()` calls in the `finally` (satAdmissionsScrapper.py:105-107). Whether clicking the admissions panel link (:81) adds a browser history entry cannot be seen from the program. If it does, the read path returns to the listing. On the missing-panel path only the anchor click (:75) happened, so the second `driver.back()` may leave the listing page.
- Scores.ParseInt: does not accept underscores between digits, non-ASCII decimal digits or surrounding whitespace, all of which Python's `int()` also accepts. Trimming happens before parsing, and the page shows ASCII digits. It also does not model the 4300-digit limit that CPython 3.11 and later (and the 3.7.14, 3.8.14, 3.9.14 and 3.10.7 security releases) put on `int()` of a string: page scores have at most four digits. So `ConvertScoreRoundTrip`, `ConvertScorePlain`, `ConvertScoreNegative` and `CalculateTotalOfRendered` hold for every natural number only under the model's `int()`; on those versions they hold for fewer than 4301 digits.
- Crawl.UnavailableOnlyWithoutLastPage: a page past the end of the modelled listing ends the crawl with `PageUnavailable`. The program would load that URL and go on; what the real site serves there is not modelled.
- Crawl.PageOpensEvenIndices: the count of opened anchors is proved for a page read without error. For a page that fails, `Crawl.PageStopsAtFailure` states which anchors are opened instead.

=== FILE: crawl.dfy ===
/**
  `scrape_college_data`: the crawl over one state's listing pages.

  Listing page `pn` (numbered from 1) shows a run of anchors. The crawl
  opens the anchors at indices 0, 2, 4, … only; every opened anchor either
  lacks the admissions panel, and is skipped, or is read and stored. The
  index advances by two on both paths. After the last anchor the crawl
  moves to page `pn + 1` if the page offers a next-page link and stops
  otherwise. A malformed score aborts the whole crawl, keeping whatever was
  stored before it.

  The browser is replaced by data: the listing is a sequence of pages and
  each anchor is the detail page it leads to.
 */
module Crawl {
  import opened Failures
  import opened Scores
  import opened Extraction
  import opened Storage

  /** What clicking an anchor leads to. */
  datatype Detail =
      /** A college page without the collapsible admissions panel (`NoSuchElementException`). */
    | NoAdmissionsPanel
      /** A college page whose admissions panel opened onto `doc`. */
    | AdmissionsPage(doc: Document)

  /** One listing page: its anchors, in page order, and whether it shows a next-page link. */
  datatype ListingPage = ListingPage(anchors: seq<Detail>, hasNext: bool)

  type Listing = seq<ListingPage>

  /** An anchor the crawl opened: the listing page and the anchor's index on it. */
  datatype Visit = Visit(page: nat, index: nat)

  /** The crawl's progress: the table, the anchors opened so far, and the error that ended it, if any. */
  datatype Crawl = Crawl(store: CollegeScores, visits: seq<Visit>, failure: Option<Error>)

  /** The anchor index advances by two: every other anchor is skipped. */
  const Stride: nat := 2

  /**
    The body of the `try`: a missing panel leaves the table alone; otherwise
    the page is read and its record stored under the page's college name,
    unless that name already has a row. An extraction error is passed on.
   */
  function ScrapeAnchor(store: CollegeScores, detail: Detail): (r: Result<CollegeScores>)
    ensures detail.NoAdmissionsPanel? ==> r == Ok(store)
    ensures r.Ok? ==> |store| <= |r.value| && r.value[..|store|] == store
    ensures detail.AdmissionsPage? ==> (r.Ok? <==> ExtractSatScores(detail.doc).Ok?)
    ensures detail.AdmissionsPage? && r.Err? ==> r.error == ExtractSatScores(detail.doc).error
    ensures detail.AdmissionsPage? && r.Ok? ==>
      var name := ExtractCollegeName(detail.doc);
      && |r.value| == |store| + (if name in Names(store) then 0 else 1)
      && Names(r.value) == Names(store) + {name}
      && Lookup(r.value, name) ==
           (if name in Names(store) then Lookup(store, name)
            else Some(CollegeData(name, ExtractSatScores(detail.doc).value)))
      && forall other :: other != name ==> Lookup(r.value, other) == Lookup(store, other)
  {
    match detail
    case NoAdmissionsPanel => Ok(store)
    case AdmissionsPage(doc) =>
      var totals :- ExtractSatScores(doc);
      var d := CollegeData(ExtractCollegeName(doc), totals);
      assert forall other :: other != d.name ==> Lookup(StoreInDatabase(store, d), other) == Lookup(store, other) by {
        forall other | other != d.name
          ensures Lookup(StoreInDatabase(store, d), other) == Lookup(store, other)
        {
          StoreLeavesOthers(store, d, other);
        }
      }
      Ok(StoreInDatabase(store, d))
  }

  /** The inner loop: open anchor `i`, then `i + 2`, … while `i` is below the anchor count. */
  function ScrapePage(anchors: seq<Detail>, pn: nat, i: nat, c: Crawl): (r: Crawl)
    requires c.failure.None?
    decreases |anchors| - i
    ensures |c.store| <= |r.store| && r.store[..|c.store|] == c.store
    ensures |c.visits| <= |r.visits| && r.visits[..|c.visits|] == c.visits
    ensures r.failure.Some? ==> r.failure.value.MalformedScore? || r.failure.value.UnpackMismatch?
  {
    if i >= |anchors| then c
    else
      var entered := c.(visits := c.visits + [Visit(pn, i)]);
      match ScrapeAnchor(c.store, anchors[i])
      case Err(e) => entered.(failure := Some(e))
      case Ok(store) => ScrapePage(anchors, pn, i + Stride, entered.(store := store))
  }

  /** The outer loop from page `pn` on: a page past the end of the listing cannot be loaded. */
  function ScrapeFrom(listing: Listing, pn: nat, c: Crawl): (r: Crawl)
    requires 1 <= pn && c.failure.None?
    decreases |listing| + 1 - pn
    ensures |c.store| <= |r.store| && r.store[..|c.store|] == c.store
    ensures r.failure.None? ==> LastPage(listing, pn).Some?
    ensures r.failure.Some? && r.failure.value.PageUnavailable? ==> LastPage(listing, pn).None?
  {
    if pn > |listing| then c.(failure := Some(PageUnavailable(pn)))
    else
      var page := listing[pn - 1];
      var after := ScrapePage(page.anchors, pn, 0, c);
      if after.failure.Some? || !page.hasNext then after
      else ScrapeFrom(listing, pn + 1, after)
  }

  /** `scrape_college_data` for one state, starting at page 1 with the table as it is. */
  function ScrapeCollegeData(listing: Listing, store: CollegeScores): (r: Crawl)
    ensures |store| <= |r.store| && r.store[..|store|] == store
    ensures r.failure.None? ==> LastPage(listing, 1).Some?
    ensures r.failure.Some? && r.failure.value.PageUnavailable? ==> LastPage(listing, 1).None?
  {
    ScrapeFrom(listing, 1, Crawl(store, [], None))
  }

  /** The same crawl as two nested loops, as the program runs it. */
  method Scrape(listing: Listing, store: CollegeScores) returns (c: Crawl)
    ensures c == ScrapeCollegeData(listing, store)
  {
    c := Crawl(store, [], None);
    var pn := 1;
    while true
      invariant 1 <= pn <= |listing| + 1
      invariant c.failure.None?
      invariant ScrapeFrom(listing, pn, c) == ScrapeCollegeData(listing, store)
      decreases |listing| + 1 - pn
    {
      if pn > |listing| {
        c := c.(failure := Some(PageUnavailable(pn)));
        return;
      }
      var page := listing[pn - 1];
      var start := c;
      var i := 0;
      while i < |page.anchors|
        invariant c.failure.None?
        invariant ScrapePage(page.anchors, pn, i, c) == ScrapePage(page.anchors, pn, 0, start)
        decreases |page.anchors| - i
      {
        c := c.(visits := c.visits + [Visit(pn, i)]);
        var outcome := ScrapeAnchor(c.store, page.anchors[i]);
        if outcome.Err? {
          c := c.(failure := Some(outcome.error));
          return;
        }
        c := c.(store := outcome.value);
        i := i + Stride;
      }
      if !page.hasNext {
        return;
      }
      pn := pn + 1;
    }
  }

  // ---------------------------------------------------------------------------
  // Reference definitions
  // ---------------------------------------------------------------------------

  /** How many anchors of `n` the stride opens from index `i`: every other one. */
  function Opened(i: nat, n: nat): nat {
    if i >= n then 0 else (n - i + 1) / 2
  }

  /** The anchors of page `pn` the stride opens from index `i`, in order. */
  function StrideVisits(pn: nat, i: nat, n: nat): seq<Visit> {
    seq(Opened(i, n), k requires 0 <= k => Visit(pn, i + 2 * k))
  }

  /** The first page number from `pn` on that shows no next-page link, if there is one. */
  function LastPage(listing: Listing, pn: nat): (r: Option<nat>)
    requires 1 <= pn
    ensures r.Some? ==> pn <= r.value <= |listing| && !listing[r.value - 1].hasNext
    ensures r.Some? ==> forall p :: pn - 1 <= p < r.value - 1 ==> listing[p].hasNext
    ensures r.None? ==> forall p :: pn - 1 <= p < |listing| ==> listing[p].hasNext
    decreases |listing| + 1 - pn
  {
    if pn > |listing| then None
    else if !listing[pn - 1].hasNext then Some(pn)
    else LastPage(listing, pn + 1)
  }

  /** Every anchor the crawl opens on pages `pn` to `last`, page by page. */
  function CrawlVisits(listing: Listing, pn: nat, last: nat): seq<Visit>
    requires 1 <= pn && last <= |listing|
    decreases last + 1 - pn
  {
    if pn > last then []
    else StrideVisits(pn, 0, |listing[pn - 1].anchors|) + CrawlVisits(listing, pn + 1, last)
  }

  /** The records the stride reads from index `i` on, skipping pages without a panel and stopping at a page whose scores fail. */
  function PageRecords(anchors: seq<Detail>, i: nat): seq<CollegeData>
    decreases |anchors| - i
  {
    if i >= |anchors| then []
    else match anchors[i]
      case NoAdmissionsPanel => PageRecords(anchors, i + Stride)
      case AdmissionsPage(doc) =>
        match ExtractSatScores(doc)
        case Err(_) => []
        case Ok(totals) => [CollegeData(ExtractCollegeName(doc), totals)] + PageRecords(anchors, i + Stride)
  }

  /** Opening the anchor raises nothing: its page lacks the admissions panel or extracts without error. */
  predicate Reads(d: Detail) {
    d.AdmissionsPage? ==> ExtractSatScores(d.doc).Ok?
  }

  /** For each anchor of a page, in page order, whether opening it raises nothing. */
  function Outcomes(anchors: seq<Detail>): (r: seq<bool>)
    ensures |r| == |anchors|
  {
    seq(|anchors|, j requires 0 <= j < |anchors| => Reads(anchors[j]))
  }

  /** Every entry the stride from `i` reaches holds. */
  predicate StrideAll(bs: seq<bool>, i: nat) {
    forall j :: i <= j < |bs| && (j - i) % Stride == 0 ==> bs[j]
  }

  /** Every anchor the stride opens from index `i` on reads without error. */
  predicate ReadsOk(anchors: seq<Detail>, i: nat) {
    StrideAll(Outcomes(anchors), i)
  }

  /**
    The first anchor the stride from `i` opens that leads to an admissions
    page whose extraction fails, if there is one.
   */
  function FirstFailure(anchors: seq<Detail>, i: nat): (r: Option<nat>)
    decreases |anchors| - i
    ensures r.Some? ==> i <= r.value < |anchors| && (r.value - i) % Stride == 0
    ensures r.Some? ==> anchors[r.value].AdmissionsPage? && ExtractSatScores(anchors[r.value].doc).Err?
  {
    if i >= |anchors| then None
    else if anchors[i].AdmissionsPage? && ExtractSatScores(anchors[i].doc).Err? then Some(i)
    else
      var r := FirstFailure(anchors, i + Stride);
      if r.Some? then StrideShift(i, r.value); r
      else r
  }

  /** No anchor on the page leads to an admissions panel. */
  predicate AllMissing(anchors: seq<Detail>) {
    forall i :: 0 <= i < |anchors| ==> anchors[i].NoAdmissionsPanel?
  }

  // ---------------------------------------------------------------------------
  // Properties of one page
  // ---------------------------------------------------------------------------

  /** A page read without error opens exactly the anchors at `i`, `i + 2`, … below the anchor count. */
  lemma {:induction false} PageStride(anchors: seq<Detail>, pn: nat, i: nat, c: Crawl)
    requires c.failure.None?
    ensures ScrapePage(anchors, pn, i, c).failure.None? ==>
      ScrapePage(anchors, pn, i, c).visits == c.visits + StrideVisits(pn, i, |anchors|)
    decreases |anchors| - i
  {
    if i < |anchors| {
      var entered := c.(visits := c.visits + [Visit(pn, i)]);
      var outcome := ScrapeAnchor(c.store, anchors[i]);
      if outcome.Ok? {
        var next := entered.(store := outcome.value);
        PageStride(anchors, pn, i + Stride, next);
        StrideVisitsStep(pn, i, |anchors|);
      }
    }
  }

  lemma StrideVisitsStep(pn: nat, i: nat, n: nat)
    requires i < n
    ensures StrideVisits(pn, i, n) == [Visit(pn, i)] + StrideVisits(pn, i + 2, n)
  {
    var s, t := StrideVisits(pn, i, n), StrideVisits(pn, i + 2, n);
    assert |s| == 1 + |t|;
    forall k | 0 <= k < |t|
      ensures s[k + 1] == t[k]
    {
    }
  }

  /**
    An error stops the page at the anchor that raised it: the page opens
    the stride up to that anchor and no further, and the error is that
    anchor's extraction error.
   */
  lemma {:induction false} PageStopsAtFailure(anchors: seq<Detail>, pn: nat, i: nat, c: Crawl)
    requires c.failure.None?
    ensures StopsAtFirstFailure(anchors, pn, i, c)
    decreases |anchors| - i
  {
    if i < |anchors| {
      if ScrapeAnchor(c.store, anchors[i]).Err? {
        FailsHere(anchors, pn, i, c);
      } else {
        var next := PassesThenStops(anchors, pn, i, c);
        PageStopsAtFailure(anchors, pn, i + Stride, next);
      }
    }
  }

  /**
    The page run from anchor `i` fails exactly when some anchor of its
    stride fails to read; it then reports the error of the first such
    anchor, having opened every anchor of the stride up to that one.
   */
  predicate StopsAtFirstFailure(anchors: seq<Detail>, pn: nat, i: nat, c: Crawl)
    requires c.failure.None?
  {
    var r, f := ScrapePage(anchors, pn, i, c), FirstFailure(anchors, i);
    && (r.failure.None? <==> f.None?)
    && (f.Some? ==> r.failure == Some(ExtractSatScores(anchors[f.value].doc).error))
    && (f.Some? ==> r.visits == c.visits + StrideVisits(pn, i, f.value + 1))
  }

  lemma PassesThenStops(anchors: seq<Detail>, pn: nat, i: nat, c: Crawl) returns (next: Crawl)
    requires c.failure.None? && i < |anchors| && ScrapeAnchor(c.store, anchors[i]).Ok?
    ensures next.failure.None?
    ensures StopsAtFirstFailure(anchors, pn, i + Stride, next) ==> StopsAtFirstFailure(anchors, pn, i, c)
  {
    next := AnchorPasses(anchors, pn, i, c);
    var f := FirstFailure(anchors, i + Stride);
    if f.Some? && StopsAtFirstFailure(anchors, pn, i + Stride, next) {
      VisitsLifted(c.visits, pn, i, f.value, next.visits, ScrapePage(anchors, pn, i + Stride, next).visits);
    }
  }

  lemma FailsHere(anchors: seq<Detail>, pn: nat, i: nat, c: Crawl)
    requires c.failure.None? && i < |anchors| && ScrapeAnchor(c.store, anchors[i]).Err?
    ensures StopsAtFirstFailure(anchors, pn, i, c)
  {
    assert StrideVisits(pn, i, i + 1) == [Visit(pn, i)];
  }

  lemma AnchorPasses(anchors: seq<Detail>, pn: nat, i: nat, c: Crawl) returns (next: Crawl)
    requires c.failure.None? && i < |anchors| && ScrapeAnchor(c.store, anchors[i]).Ok?
    ensures next.failure.None? && next.visits == c.visits + [Visit(pn, i)]
    ensures ScrapePage(anchors, pn, i, c) == ScrapePage(anchors, pn, i + Stride, next)
    ensures FirstFailure(anchors, i) == FirstFailure(anchors, i + Stride)
  {
    next := c.(visits := c.visits + [Visit(pn, i)], store := ScrapeAnchor(c.store, anchors[i]).value);
  }

  lemma VisitsLifted(v: seq<Visit>, pn: nat, i: nat, j: nat, nv: seq<Visit>, rv: seq<Visit>)
    requires i <= j && nv == v + [Visit(pn, i)] && rv == nv + StrideVisits(pn, i + Stride, j + 1)
    ensures rv == v + StrideVisits(pn, i, j + 1)
  {
    StrideVisitsStep(pn, i, j + 1);
    var rest := StrideVisits(pn, i + Stride, j + 1);
    assert v + [Visit(pn, i)] + rest == v + ([Visit(pn, i)] + rest);
  }

  /** A page ends without error exactly when every anchor its stride opens reads without error. */
  lemma {:induction false} PageSucceedsIff(anchors: seq<Detail>, pn: nat, i: nat, c: Crawl)
    requires c.failure.None?
    ensures ScrapePage(anchors, pn, i, c).failure.None? <==> ReadsOk(anchors, i)
    decreases |anchors| - i
  {
    if i < |anchors| {
      StrideAllStep(Outcomes(anchors), i);
      var outcome := ScrapeAnchor(c.store, anchors[i]);
      if outcome.Ok? {
        PageSucceedsIff(anchors, pn, i + Stride, c.(visits := c.visits + [Visit(pn, i)], store := outcome.value));
      }
    }
  }

  /** The stride from `i` reaches only true entries exactly when entry `i` is true and the stride from `i + 2` reaches only true entries. */
  lemma StrideAllStep(bs: seq<bool>, i: nat)
    requires i < |bs|
    ensures StrideAll(bs, i) <==> bs[i] && StrideAll(bs, i + Stride)
  {
    if StrideAll(bs, i) {
      forall j | i + Stride <= j < |bs| && (j - (i + Stride)) % Stride == 0
        ensures bs[j]
      {
        StrideShift(i, j);
      }
    }
    if bs[i] && StrideAll(bs, i + Stride) {
      forall j | i <= j < |bs| && (j - i) % Stride == 0
        ensures bs[j]
      {
        if j != i {
          assert (j - (i + Stride)) % Stride == 0;
        }
      }
    }
  }

  lemma StrideShift(i: int, j: int)
    requires (j - (i + Stride)) % Stride == 0
    ensures (j - i) % Stride == 0
  {
    var q := (j - (i + Stride)) / Stride;
    assert j - i == Stride * (q + 1);
  }

  /** On a page of `n` anchors the crawl opens ⌈n/2⌉ of them, exactly the even indices. */
  lemma PageOpensEvenIndices(anchors: seq<Detail>, pn: nat, c: Crawl)
    requires c.failure.None?
    requires ScrapePage(anchors, pn, 0, c).failure.None?
    ensures var v := ScrapePage(anchors, pn, 0, c).visits;
      && |v| == |c.visits| + (|anchors| + 1) / 2
      && (forall j: nat :: Visit(pn, j) in v[|c.visits|..] <==> j < |anchors| && j % 2 == 0)
  {
    PageStride(anchors, pn, 0, c);
    var s := StrideVisits(pn, 0, |anchors|);
    forall j: nat
      ensures Visit(pn, j) in s <==> j < |anchors| && j % 2 == 0
    {
      if j < |anchors| && j % 2 == 0 {
        assert s[j / 2] == Visit(pn, j);
      }
    }
    assert ScrapePage(anchors, pn, 0, c).visits[|c.visits|..] == s;
  }

  /** A page none of whose anchors leads to an admissions panel leaves the table unchanged and cannot fail. */
  lemma {:induction false} MissingPanelsSkipped(anchors: seq<Detail>, pn: nat, i: nat, c: Crawl)
    requires c.failure.None?
    requires AllMissing(anchors)
    ensures ScrapePage(anchors, pn, i, c).failure.None?
    ensures ScrapePage(anchors, pn, i, c).store == c.store
    decreases |anchors| - i
  {
    if i < |anchors| {
      var entered := c.(visits := c.visits + [Visit(pn, i)]);
      MissingPanelsSkipped(anchors, pn, i + Stride, entered);
    }
  }

  /** A page never removes or rewrites a row: the table it starts with is a prefix of the table it leaves. */
  lemma {:induction false} PageKeepsRows(anchors: seq<Detail>, pn: nat, i: nat, c: Crawl)
    requires c.failure.None?
    ensures var r := ScrapePage(anchors, pn, i, c);
      |c.store| <= |r.store| && r.store[..|c.store|] == c.store
    ensures UniqueNames(c.store) ==> UniqueNames(ScrapePage(anchors, pn, i, c).store)
    decreases |anchors| - i
  {
    if i < |anchors| {
      var entered := c.(visits := c.visits + [Visit(pn, i)]);
      var outcome := ScrapeAnchor(c.store, anchors[i]);
      if outcome.Ok? {
        var next := entered.(store := outcome.value);
        PageKeepsRows(anchors, pn, i + Stride, next);
        var r := ScrapePage(anchors, pn, i + Stride, next);
        assert r.store[..|c.store|] == r.store[..|next.store|][..|c.store|];
        if anchors[i].AdmissionsPage? && UniqueNames(c.store) {
          var doc := anchors[i].doc;
          StoreKeepsUnique(c.store, CollegeData(ExtractCollegeName(doc), ExtractSatScores(doc).value));
        }
      }
    }
  }

  /** A page read without error stores its records one after another, so the table is their first-write-wins fold. */
  lemma {:induction false} PageStoresRecords(anchors: seq<Detail>, pn: nat, i: nat, c: Crawl)
    requires c.failure.None?
    ensures ScrapePage(anchors, pn, i, c).failure.None? ==>
      ScrapePage(anchors, pn, i, c).store == StoreAll(c.store, PageRecords(anchors, i))
    decreases |anchors| - i
  {
    if i < |anchors| {
      var entered := c.(visits := c.visits + [Visit(pn, i)]);
      var outcome := ScrapeAnchor(c.store, anchors[i]);
      if outcome.Ok? {
        var next := entered.(store := outcome.value);
        PageStoresRecords(anchors, pn, i + Stride, next);
        if anchors[i].AdmissionsPage? {
          var rs := PageRecords(anchors, i);
          assert rs[1..] == PageRecords(anchors, i + Stride);
        }
      }
    } else {
      assert PageRecords(anchors, i) == [];
    }
  }

  /** The row a page leaves under any name is the first one the table or the page's records offered under it. */
  lemma PageFirstReadWins(anchors: seq<Detail>, pn: nat, c: Crawl, name: string)
    requires c.failure.None?
    requires ScrapePage(anchors, pn, 0, c).failure.None?
    ensures Lookup(ScrapePage(anchors, pn, 0, c).store, name) == Lookup(c.store + PageRecords(anchors, 0), name)
  {
    PageStoresRecords(anchors, pn, 0, c);
    StoreAllFirstWins(c.store, PageRecords(anchors, 0), name);
  }

  // ---------------------------------------------------------------------------
  // Properties of the whole crawl
  // ---------------------------------------------------------------------------

  /** The crawl never reads a page after the first one without a next-page link. */
  lemma {:induction false} CrawlStopsAtLastPage(listing: Listing, pn: nat, c: Crawl, last: nat)
    requires 1 <= pn && c.failure.None?
    requires LastPage(listing, pn) == Some(last)
    ensures ScrapeFrom(listing, pn, c) == ScrapeFrom(listing[..last], pn, c)
    decreases |listing| + 1 - pn
  {
    var page := listing[pn - 1];
    assert listing[..last][pn - 1] == page;
    var after := ScrapePage(page.anchors, pn, 0, c);
    if after.failure.None? && page.hasNext {
      CrawlStopsAtLastPage(listing, pn + 1, after, last);
    }
  }

  /** The crawl asks for a page the listing lacks only when every page from `pn` on shows a next-page link. */
  lemma {:induction false} UnavailableOnlyWithoutLastPage(listing: Listing, pn: nat, c: Crawl)
    requires 1 <= pn <= |listing| + 1 && c.failure.None?
    ensures ScrapeFrom(listing, pn, c).failure.Some? && ScrapeFrom(listing, pn, c).failure.value.PageUnavailable? ==>
      LastPage(listing, pn).None? && ScrapeFrom(listing, pn, c).failure.value == PageUnavailable(|listing| + 1)
    decreases |listing| + 1 - pn
  {
    if pn <= |listing| {
      var page := listing[pn - 1];
      var after := ScrapePage(page.anchors, pn, 0, c);
      if after.failure.None? && page.hasNext {
        UnavailableOnlyWithoutLastPage(listing, pn + 1, after);
      }
    }
  }

  /** A crawl without error opens, on every page up to the last one, exactly that page's even-indexed anchors. */
  lemma {:induction false} CrawlOpensEveryOtherAnchor(listing: Listing, pn: nat, c: Crawl, last: nat)
    requires 1 <= pn && c.failure.None?
    requires LastPage(listing, pn) == Some(last)
    requires ScrapeFrom(listing, pn, c).failure.None?
    ensures ScrapeFrom(listing, pn, c).visits == c.visits + CrawlVisits(listing, pn, last)
    decreases |listing| + 1 - pn
  {
    var page := listing[pn - 1];
    if page.hasNext {
      var after := NextPageStep(listing, pn, c, last);
      CrawlOpensEveryOtherAnchor(listing, pn + 1, after, last);
    } else {
      LastPageStep(listing, pn, c, last);
    }
  }

  /** The outer loop on the last page: the crawl opens that page's stride and stops. */
  lemma LastPageStep(listing: Listing, pn: nat, c: Crawl, last: nat)
    requires 1 <= pn <= |listing| && c.failure.None? && !listing[pn - 1].hasNext
    requires LastPage(listing, pn) == Some(last)
    requires ScrapeFrom(listing, pn, c).failure.None?
    ensures ScrapeFrom(listing, pn, c).visits == c.visits + CrawlVisits(listing, pn, last)
  {
    var anchors := listing[pn - 1].anchors;
    PageStride(anchors, pn, 0, c);
    assert CrawlVisits(listing, pn, last) == StrideVisits(pn, 0, |anchors|) + CrawlVisits(listing, pn + 1, last);
  }

  /** The outer loop on a page with a next-page link: the page's stride, then the crawl from the next page. */
  lemma NextPageStep(listing: Listing, pn: nat, c: Crawl, last: nat) returns (after: Crawl)
    requires 1 <= pn <= |listing| && c.failure.None? && listing[pn - 1].hasNext
    requires LastPage(listing, pn) == Some(last)
    requires ScrapeFrom(listing, pn, c).failure.None?
    ensures after.failure.None? && LastPage(listing, pn + 1) == Some(last)
    ensures ScrapeFrom(listing, pn + 1, after) == ScrapeFrom(listing, pn, c)
    ensures ScrapeFrom(listing, pn + 1, after).visits == after.visits + CrawlVisits(listing, pn + 1, last) ==>
      ScrapeFrom(listing, pn, c).visits == c.visits + CrawlVisits(listing, pn, last)
  {
    var anchors := listing[pn - 1].anchors;
    after := ScrapePage(anchors, pn, 0, c);
    PageStride(anchors, pn, 0, c);
    assert CrawlVisits(listing, pn, last) == StrideVisits(pn, 0, |anchors|) + CrawlVisits(listing, pn + 1, last);
  }

  /**
    With a last page ahead, the crawl ends without error exactly when every
    page up to and including the last one reads all the anchors it opens.
   */
  lemma {:induction false} CrawlSucceedsIff(listing: Listing, pn: nat, c: Crawl, last: nat)
    requires 1 <= pn && c.failure.None?
    requires LastPage(listing, pn) == Some(last)
    ensures ScrapeFrom(listing, pn, c).failure.None? <==> PagesReadOk(listing, pn - 1, last)
    decreases |listing| + 1 - pn
  {
    if listing[pn - 1].hasNext {
      var after := NextPageSucceeds(listing, pn, c, last);
      if after.failure.None? {
        CrawlSucceedsIff(listing, pn + 1, after, last);
      }
    } else {
      LastPageSucceeds(listing, pn, c, last);
    }
  }

  /** Every page from index `from` up to but excluding `to` reads every anchor it opens without error. */
  predicate PagesReadOk(listing: Listing, from: nat, to: nat)
    requires to <= |listing|
  {
    forall p :: from <= p < to ==> ReadsOk(listing[p].anchors, 0)
  }

  lemma LastPageSucceeds(listing: Listing, pn: nat, c: Crawl, last: nat)
    requires 1 <= pn <= |listing| && c.failure.None? && !listing[pn - 1].hasNext
    requires LastPage(listing, pn) == Some(last)
    ensures ScrapeFrom(listing, pn, c).failure.None? <==> PagesReadOk(listing, pn - 1, last)
  {
    PageSucceedsIff(listing[pn - 1].anchors, pn, 0, c);
    LastPageEndsCrawl(listing, pn, c);
    OnePageReadsOk(listing, pn, last);
  }

  lemma LastPageEndsCrawl(listing: Listing, pn: nat, c: Crawl)
    requires 1 <= pn <= |listing| && c.failure.None? && !listing[pn - 1].hasNext
    ensures ScrapeFrom(listing, pn, c) == ScrapePage(listing[pn - 1].anchors, pn, 0, c)
  { }

  lemma OnePageReadsOk(listing: Listing, pn: nat, last: nat)
    requires 1 <= pn <= |listing| && !listing[pn - 1].hasNext
    requires LastPage(listing, pn) == Some(last)
    ensures PagesReadOk(listing, pn - 1, last) <==> ReadsOk(listing[pn - 1].anchors, 0)
  {
    assert last == pn;
  }

  lemma NextPageSucceeds(listing: Listing, pn: nat, c: Crawl, last: nat) returns (after: Crawl)
    requires 1 <= pn <= |listing| && c.failure.None? && listing[pn - 1].hasNext
    requires LastPage(listing, pn) == Some(last)
    ensures after.failure.None? ==> LastPage(listing, pn + 1) == Some(last)
    ensures after.failure.None? ==>
      (ScrapeFrom(listing, pn + 1, after).failure.None? <==> PagesReadOk(listing, pn, last)) ==>
      (ScrapeFrom(listing, pn, c).failure.None? <==> PagesReadOk(listing, pn - 1, last))
    ensures after.failure.Some? ==>
      ScrapeFrom(listing, pn, c).failure.Some? && !PagesReadOk(listing, pn - 1, last)
  {
    after := ScrapePage(listing[pn - 1].anchors, pn, 0, c);
    PageSucceedsIff(listing[pn - 1].anchors, pn, 0, c);
  }

  /**
    An extraction error on page `pn` ends the whole crawl: the crawl's
    result is that page's result, so no later page is opened, and by
    `PageStopsAtFailure` the page itself stops at its first failing anchor
    and reports that anchor's error.
   */
  lemma CrawlStopsAtFailure(listing: Listing, pn: nat, c: Crawl)
    requires 1 <= pn <= |listing| && c.failure.None?
    requires FirstFailure(listing[pn - 1].anchors, 0).Some?
    ensures ScrapeFrom(listing, pn, c).failure.Some?
    ensures ScrapeFrom(listing, pn, c) == ScrapePage(listing[pn - 1].anchors, pn, 0, c)
  {
    PageStopsAtFailure(listing[pn - 1].anchors, pn, 0, c);
  }

  /** A crawl whose pages lead nowhere with an admissions panel stores nothing; it ends at the last page or asks past the listing. */
  lemma {:induction false} CrawlWithoutPanels(listing: Listing, pn: nat, c: Crawl)
    requires 1 <= pn && c.failure.None?
    requires forall p :: 0 <= p < |listing| ==> AllMissing(listing[p].anchors)
    ensures ScrapeFrom(listing, pn, c).store == c.store
    ensures ScrapeFrom(listing, pn, c).failure.Some? ==> LastPage(listing, pn).None?
    decreases |listing| + 1 - pn
  {
    if pn <= |listing| {
      var page := listing[pn - 1];
      MissingPanelsSkipped(page.anchors, pn, 0, c);
      if page.hasNext {
        CrawlWithoutPanels(listing, pn + 1, ScrapePage(page.anchors, pn, 0, c));
      }
    }
  }

  /** The crawl keeps every row it started with and keeps names unique. */
  lemma {:induction false} CrawlKeepsRows(listing: Listing, pn: nat, c: Crawl)
    requires 1 <= pn && c.failure.None?
    ensures var r := ScrapeFrom(listing, pn, c);
      |c.store| <= |r.store| && r.store[..|c.store|] == c.store
    ensures UniqueNames(c.store) ==> UniqueNames(ScrapeFrom(listing, pn, c).store)
    decreases |listing| + 1 - pn
  {
    if pn <= |listing| {
      var page := listing[pn - 1];
      var after := ScrapePage(page.anchors, pn, 0, c);
      PageKeepsRows(page.anchors, pn, 0, c);
      if after.failure.None? && page.hasNext {
        CrawlKeepsRows(listing, pn + 1, after);
        var r := ScrapeFrom(listing, pn + 1, after);
        assert r.store[..|c.store|] == r.store[..|after.store|][..|c.store|];
      }
    }
  }

  /** Two pages of four and two anchors, the first with a next-page link: anchors 0 and 2 of page 1 and anchor 0 of page 2 are entered. */
  lemma TwoPageExample(store: CollegeScores)
    ensures var listing := [
        ListingPage([NoAdmissionsPanel, NoAdmissionsPanel, NoAdmissionsPanel, NoAdmissionsPanel], true),
        ListingPage([NoAdmissionsPanel, NoAdmissionsPanel], false)];
      ScrapeCollegeData(listing, store) == Crawl(store, [Visit(1, 0), Visit(1, 2), Visit(2, 0)], None)
  {
  }
}

=== FILE: extraction.dfy ===
/**
  Record extraction from a college's detail page: `extract_college_name`
  and `extract_sat_scores`.

  The parsed page is modelled directly: the text of the `headerlg` span if
  there is one, and the `tabular` tables in document order, each a sequence
  of rows carrying the row's whole text and the texts of its `td` cells.
  Finding those elements is HTML parsing and is not modelled.
 */
module Extraction {
  import opened Failures
  import opened Scores

  const EbrwLabel: string := "SAT Evidence-Based Reading and Writing"
  const MathLabel: string := "SAT Math"
  const UnknownCollege: string := "Unknown College"

  /** A `tr`: its whole text and the texts of its `td` cells, in order. */
  datatype Row = Row(text: string, cells: seq<string>)

  /** A `table` of class `tabular`. */
  datatype Table = Table(rows: seq<Row>)

  /** A parsed detail page. */
  datatype Document = Document(header: Option<string>, tables: seq<Table>)

  /** The 25th, 50th and 75th percentile cell texts of one sub-score. */
  datatype SubScores = SubScores(p25: string, p50: string, p75: string)

  /** What a sub-score holds before any row supplied it. */
  const Missing: SubScores := SubScores(NoDataText, NoDataText, NoDataText)

  /** The two sub-scores while the rows are scanned. */
  datatype ScanState = ScanState(ebrw: SubScores, math: SubScores)

  const Initial: ScanState := ScanState(Missing, Missing)

  /** The three percentile totals of one college. */
  datatype SatTotals = SatTotals(p25: Total, p50: Total, p75: Total)

  const AllNoData: SatTotals := SatTotals(NoData, NoData, NoData)

  // ---------------------------------------------------------------------------
  // Name
  // ---------------------------------------------------------------------------

  /** `extract_college_name`: the trimmed header text, or the default when the span is absent. */
  function ExtractCollegeName(doc: Document): (r: string)
    ensures doc.header.None? ==> r == UnknownCollege
    ensures doc.header.Some? ==> |r| <= |doc.header.value|
    ensures doc.header.Some? ==> r == [] || (!IsSpace(r[0]) && !IsSpace(r[|r| - 1]))
  {
    match doc.header
    case Some(text) => Strip(text)
    case None => UnknownCollege
  }

  // ---------------------------------------------------------------------------
  // Row matching
  // ---------------------------------------------------------------------------

  /** Python's `t in s` on strings. */
  predicate Contains(s: string, t: string)
    decreases |s|
  {
    |t| <= |s| && (s[..|t|] == t || Contains(s[1..], t))
  }

  /** The two kinds of score row the scan looks for. */
  datatype RowKind = Ebrw | Math

  /**
    Whether the scan treats `row` as a row of that kind. The math test is
    the `elif` branch, so a row that carries the reading/writing label is
    never a math row.
   */
  predicate Matches(row: Row, kind: RowKind) {
    match kind
    case Ebrw => Contains(row.text, EbrwLabel)
    case Math => !Contains(row.text, EbrwLabel) && Contains(row.text, MathLabel)
  }

  /** The three data cells of a row of exactly four cells. */
  function Cells(row: Row): SubScores
    requires |row.cells| == 4
  {
    SubScores(row.cells[1], row.cells[2], row.cells[3])
  }

  /**
    Unpacks the cells after the first into three names; any other count is
    the unpacking error, carrying how many there were.
   */
  function DataCells(row: Row): (r: Result<SubScores>)
    ensures r.Ok? <==> |row.cells| == 4
    ensures r.Ok? ==> r.value == Cells(row)
    ensures r.Err? ==> r.error == UnpackMismatch(if |row.cells| == 0 then 0 else |row.cells| - 1)
  {
    var rest := if |row.cells| == 0 then [] else row.cells[1..];
    if |rest| == 3 then Ok(SubScores(rest[0], rest[1], rest[2])) else Err(UnpackMismatch(|rest|))
  }

  // ---------------------------------------------------------------------------
  // Scanning
  // ---------------------------------------------------------------------------

  /** One iteration of the row loop: overwrite the sub-score the row supplies, if any. */
  function ScanRow(st: ScanState, row: Row): (r: Result<ScanState>)
    ensures r.Ok? <==> (!Matches(row, Ebrw) && !Matches(row, Math)) || |row.cells| == 4
    ensures r.Err? ==> r.error.UnpackMismatch?
    ensures r.Ok? ==> r.value.ebrw == (if Matches(row, Ebrw) then Cells(row) else st.ebrw)
    ensures r.Ok? ==> r.value.math == (if Matches(row, Math) then Cells(row) else st.math)
  {
    if Contains(row.text, EbrwLabel) then
      var s :- DataCells(row);
      Ok(st.(ebrw := s))
    else if Contains(row.text, MathLabel) then
      var s :- DataCells(row);
      Ok(st.(math := s))
    else
      Ok(st)
  }

  /** The row loop over one sequence of rows; the first unpacking error stops it. */
  function ScanRows(st: ScanState, rows: seq<Row>): (r: Result<ScanState>)
    decreases |rows|
    ensures r.Err? ==> r.error.UnpackMismatch?
  {
    if |rows| == 0 then Ok(st)
    else
      var st' :- ScanRow(st, rows[0]);
      ScanRows(st', rows[1..])
  }

  /** The table loop: every table's rows, table after table. */
  function ScanTables(st: ScanState, tables: seq<Table>): (r: Result<ScanState>)
    decreases |tables|
    ensures r.Err? ==> r.error.UnpackMismatch?
  {
    if |tables| == 0 then Ok(st)
    else
      var st' :- ScanRows(st, tables[0].rows);
      ScanTables(st', tables[1..])
  }

  /** The rows of all tables, in document order. */
  function AllRows(tables: seq<Table>): seq<Row> {
    if |tables| == 0 then [] else tables[0].rows + AllRows(tables[1..])
  }

  /** The three `calculate_total_sat` calls, 25th percentile first. */
  function CombineTotals(st: ScanState): (r: Result<SatTotals>)
    ensures r.Err? ==> r.error.MalformedScore?
    ensures st.ebrw == Missing || st.math == Missing ==> r == Ok(AllNoData)
    ensures r.Ok? <==>
      && CalculateTotal(st.ebrw.p25, st.math.p25).Ok?
      && CalculateTotal(st.ebrw.p50, st.math.p50).Ok?
      && CalculateTotal(st.ebrw.p75, st.math.p75).Ok?
    ensures r.Ok? ==>
      && r.value.p25 == CalculateTotal(st.ebrw.p25, st.math.p25).value
      && r.value.p50 == CalculateTotal(st.ebrw.p50, st.math.p50).value
      && r.value.p75 == CalculateTotal(st.ebrw.p75, st.math.p75).value
  {
    var t25 :- CalculateTotal(st.ebrw.p25, st.math.p25);
    var t50 :- CalculateTotal(st.ebrw.p50, st.math.p50);
    var t75 :- CalculateTotal(st.ebrw.p75, st.math.p75);
    Ok(SatTotals(t25, t50, t75))
  }

  /** `extract_sat_scores`: scan every row, then combine the sub-scores per percentile. */
  function ExtractSatScores(doc: Document): (r: Result<SatTotals>)
    ensures r.Err? ==> r.error.MalformedScore? || r.error.UnpackMismatch?
  {
    var st :- ScanTables(Initial, doc.tables);
    CombineTotals(st)
  }

  // ---------------------------------------------------------------------------
  // Reference definitions for the scan
  // ---------------------------------------------------------------------------

  /** Every row the scan uses has exactly four cells. */
  predicate WellShaped(rows: seq<Row>) {
    forall k :: 0 <= k < |rows| && (Matches(rows[k], Ebrw) || Matches(rows[k], Math)) ==> |rows[k].cells| == 4
  }

  predicate NoMatch(rows: seq<Row>, kind: RowKind) {
    forall k :: 0 <= k < |rows| ==> !Matches(rows[k], kind)
  }

  /** Row `k` is the last row of kind `kind`. */
  predicate LastMatchAt(rows: seq<Row>, kind: RowKind, k: int) {
    && 0 <= k < |rows|
    && Matches(rows[k], kind)
    && forall j :: k < j < |rows| ==> !Matches(rows[j], kind)
  }

  /**
    `s` is what "the last matching row wins" leaves for `kind` when the
    value before the scan was `init`.
   */
  predicate LastMatchLeaves(rows: seq<Row>, kind: RowKind, init: SubScores, s: SubScores)
    requires WellShaped(rows)
  {
    && (NoMatch(rows, kind) ==> s == init)
    && forall k :: 0 <= k < |rows| && LastMatchAt(rows, kind, k) ==> s == Cells(rows[k])
  }

  // ---------------------------------------------------------------------------
  // Properties
  // ---------------------------------------------------------------------------

  /** The name is the header text with surrounding whitespace removed, or the default without a header. */
  lemma CollegeNameSpec(doc: Document)
    ensures doc.header.None? ==> ExtractCollegeName(doc) == UnknownCollege
    ensures doc.header.Some? ==>
      var h, name := doc.header.value, ExtractCollegeName(doc);
      && (exists i :: PaddedAt(h, name, i))
      && (name == [] || (!IsSpace(name[0]) && !IsSpace(name[|name| - 1])))
  {
    if doc.header.Some? {
      StripSpec(doc.header.value);
    }
  }

  /** A padded header yields exactly the text inside the padding. */
  lemma CollegeNamePadded(pre: string, name: string, post: string, tables: seq<Table>)
    requires AllSpace(pre) && AllSpace(post)
    requires |name| > 0 && !IsSpace(name[0]) && !IsSpace(name[|name| - 1])
    ensures ExtractCollegeName(Document(Some(pre + name + post), tables)) == name
  {
    StripPadded(pre, name, post);
  }

  /** `t` occurs in `s` starting at index `i`. */
  predicate OccursAt(s: string, t: string, i: int) {
    0 <= i <= |s| - |t| && s[i..i + |t|] == t
  }

  /** `Contains` is substring search. */
  lemma {:induction false} ContainsSpec(s: string, t: string)
    ensures Contains(s, t) <==> exists i :: OccursAt(s, t, i)
    decreases |s|
  {
    if |t| <= |s| && s[..|t|] != t {
      ContainsSpec(s[1..], t);
      if exists i :: OccursAt(s, t, i) {
        var i :| OccursAt(s, t, i);
        assert i != 0;
        assert OccursAt(s[1..], t, i - 1);
      }
      if Contains(s[1..], t) {
        var i :| OccursAt(s[1..], t, i);
        assert OccursAt(s, t, i + 1);
      }
    } else if |t| <= |s| {
      assert OccursAt(s, t, 0);
    }
  }

  lemma LastMatchStep(rows: seq<Row>, kind: RowKind, init: SubScores, s: SubScores)
    requires |rows| > 0 && WellShaped(rows)
    requires LastMatchLeaves(rows[1..], kind, if Matches(rows[0], kind) then Cells(rows[0]) else init, s)
    ensures LastMatchLeaves(rows, kind, init, s)
  {
    var tail := rows[1..];
    forall k | LastMatchAt(rows, kind, k)
      ensures s == Cells(rows[k])
    {
      if k == 0 {
        assert NoMatch(tail, kind) by {
          forall j | 0 <= j < |tail| ensures !Matches(tail[j], kind) {
            assert tail[j] == rows[j + 1];
          }
        }
      } else {
        assert LastMatchAt(tail, kind, k - 1) by {
          forall j | k - 1 < j < |tail| ensures !Matches(tail[j], kind) {
            assert tail[j] == rows[j + 1];
          }
        }
      }
    }
    if NoMatch(rows, kind) {
      assert NoMatch(tail, kind) by {
        forall j | 0 <= j < |tail| ensures !Matches(tail[j], kind) {
          assert tail[j] == rows[j + 1];
        }
      }
    }
  }

  /**
    The row scan succeeds exactly when every row it uses has four cells, and
    then each sub-score is the data of the last row of its kind, or what it
    was before when no row has that kind.
   */
  lemma {:induction false} ScanRowsSpec(st: ScanState, rows: seq<Row>)
    decreases |rows|
    ensures ScanRows(st, rows).Ok? <==> WellShaped(rows)
    ensures ScanRows(st, rows).Ok? ==>
      && LastMatchLeaves(rows, Ebrw, st.ebrw, ScanRows(st, rows).value.ebrw)
      && LastMatchLeaves(rows, Math, st.math, ScanRows(st, rows).value.math)
  {
    if |rows| > 0 {
      var row := rows[0];
      var tail := rows[1..];
      var step := ScanRow(st, row);
      if step.Err? {
        assert !WellShaped(rows) by {
          assert Matches(row, Ebrw) || Matches(row, Math);
        }
      } else {
        var st' := step.value;
        assert (Matches(row, Ebrw) || Matches(row, Math)) ==> |row.cells| == 4;
        ScanRowsSpec(st', tail);
        assert WellShaped(rows) <==> WellShaped(tail) by {
          if WellShaped(tail) {
            forall k | 0 <= k < |rows| && (Matches(rows[k], Ebrw) || Matches(rows[k], Math))
              ensures |rows[k].cells| == 4
            {
              if k > 0 {
                assert rows[k] == tail[k - 1];
              }
            }
          }
          if WellShaped(rows) {
            forall k | 0 <= k < |tail| && (Matches(tail[k], Ebrw) || Matches(tail[k], Math))
              ensures |tail[k].cells| == 4
            {
              assert tail[k] == rows[k + 1];
            }
          }
        }
        if WellShaped(rows) {
          var res := ScanRows(st', tail).value;
          assert st'.ebrw == if Matches(row, Ebrw) then Cells(row) else st.ebrw;
          assert st'.math == if Matches(row, Math) then Cells(row) else st.math;
          LastMatchStep(rows, Ebrw, st.ebrw, res.ebrw);
          LastMatchStep(rows, Math, st.math, res.math);
        }
      }
    }
  }

  lemma {:induction false} ScanRowsAppend(st: ScanState, a: seq<Row>, b: seq<Row>)
    decreases |a|
    ensures ScanRows(st, a + b) == match ScanRows(st, a)
                                   case Ok(st') => ScanRows(st', b)
                                   case Err(e) => Err(e)
  {
    if |a| == 0 {
      assert a + b == b;
    } else {
      assert (a + b)[0] == a[0];
      assert (a + b)[1..] == a[1..] + b;
      var step := ScanRow(st, a[0]);
      if step.Ok? {
        ScanRowsAppend(step.value, a[1..], b);
      }
    }
  }

  /** Scanning table by table is scanning all their rows in document order. */
  lemma {:induction false} ScanTablesFlat(st: ScanState, tables: seq<Table>)
    decreases |tables|
    ensures ScanTables(st, tables) == ScanRows(st, AllRows(tables))
  {
    if |tables| > 0 {
      ScanRowsAppend(st, tables[0].rows, AllRows(tables[1..]));
      var first := ScanRows(st, tables[0].rows);
      if first.Ok? {
        ScanTablesFlat(first.value, tables[1..]);
      }
    }
  }

  /** The scan of the whole page, as one statement about its rows in document order. */
  lemma ExtractScan(doc: Document)
    ensures ScanTables(Initial, doc.tables).Ok? <==> WellShaped(AllRows(doc.tables))
    ensures ScanTables(Initial, doc.tables).Ok? ==>
      var rows, st := AllRows(doc.tables), ScanTables(Initial, doc.tables).value;
      LastMatchLeaves(rows, Ebrw, Missing, st.ebrw) && LastMatchLeaves(rows, Math, Missing, st.math)
  {
    ScanTablesFlat(Initial, doc.tables);
    ScanRowsSpec(Initial, AllRows(doc.tables));
  }

  /** A matched row without exactly three data cells makes the extraction fail with the unpacking error. */
  lemma ExtractRejectsMisshapenRow(doc: Document)
    requires !WellShaped(AllRows(doc.tables))
    ensures ExtractSatScores(doc).Err? && ExtractSatScores(doc).error.UnpackMismatch?
  {
    ExtractScan(doc);
    ScanTablesFlat(Initial, doc.tables);
  }

  /**
    Without a reading/writing row, or without a math row, every total is
    "No Data"; the extraction then fails only through a misshapen row.
   */
  lemma ExtractMissingRow(doc: Document)
    requires NoMatch(AllRows(doc.tables), Ebrw) || NoMatch(AllRows(doc.tables), Math)
    ensures ExtractSatScores(doc).Ok? <==> WellShaped(AllRows(doc.tables))
    ensures ExtractSatScores(doc).Ok? ==> ExtractSatScores(doc).value == AllNoData
  {
    ExtractScan(doc);
  }

  /**
    With both rows present and all six data cells numeric, each total is the
    sum of the two cells in its column, taken from the last row of each kind.
   */
  lemma ExtractColumnSums(doc: Document, k: nat, m: nat)
    requires WellShaped(AllRows(doc.tables))
    requires LastMatchAt(AllRows(doc.tables), Ebrw, k) && LastMatchAt(AllRows(doc.tables), Math, m)
    requires var e, h := AllRows(doc.tables)[k].cells, AllRows(doc.tables)[m].cells;
      Numeric(e[1]) && Numeric(e[2]) && Numeric(e[3]) && Numeric(h[1]) && Numeric(h[2]) && Numeric(h[3])
    ensures var e, h := AllRows(doc.tables)[k].cells, AllRows(doc.tables)[m].cells;
      ExtractSatScores(doc) == Ok(SatTotals(Num(Sum(e[1], h[1])), Num(Sum(e[2], h[2])), Num(Sum(e[3], h[3]))))
  {
    var rows := AllRows(doc.tables);
    ExtractScan(doc);
    var st := ScanTables(Initial, doc.tables).value;
    assert st.ebrw == Cells(rows[k]) && st.math == Cells(rows[m]);
    CombineNumeric(st);
  }

  /**
    With both rows present, each total is `calculate_total_sat` of its
    column's two cells, taken from the last row of each kind, and the
    extraction fails exactly when one of the three columns fails to combine.
   */
  lemma ExtractColumns(doc: Document, k: nat, m: nat)
    requires WellShaped(AllRows(doc.tables))
    requires LastMatchAt(AllRows(doc.tables), Ebrw, k) && LastMatchAt(AllRows(doc.tables), Math, m)
    ensures var e, h := AllRows(doc.tables)[k].cells, AllRows(doc.tables)[m].cells;
      var t25, t50, t75 := CalculateTotal(e[1], h[1]), CalculateTotal(e[2], h[2]), CalculateTotal(e[3], h[3]);
      && (ExtractSatScores(doc).Ok? <==> t25.Ok? && t50.Ok? && t75.Ok?)
      && (ExtractSatScores(doc).Ok? ==> ExtractSatScores(doc).value == SatTotals(t25.value, t50.value, t75.value))
  {
    var rows := AllRows(doc.tables);
    ExtractScan(doc);
    var st := ScanTables(Initial, doc.tables).value;
    assert st.ebrw == Cells(rows[k]) && st.math == Cells(rows[m]);
  }

  /**
    With both rows present, a column whose two cells are not "No Data" but
    one of which does not convert makes the extraction fail with the parse
    error.
   */
  lemma ExtractRejectsMalformedCell(doc: Document, k: nat, m: nat, j: nat)
    requires WellShaped(AllRows(doc.tables))
    requires LastMatchAt(AllRows(doc.tables), Ebrw, k) && LastMatchAt(AllRows(doc.tables), Math, m)
    requires 1 <= j <= 3
    requires var e, h := AllRows(doc.tables)[k].cells[j], AllRows(doc.tables)[m].cells[j];
      e != NoDataText && h != NoDataText && (ConvertScore(e).Err? || ConvertScore(h).Err?)
    ensures ExtractSatScores(doc).Err? && ExtractSatScores(doc).error.MalformedScore?
  {
    var rows := AllRows(doc.tables);
    ExtractScan(doc);
    var st := ScanTables(Initial, doc.tables).value;
    assert st.ebrw == Cells(rows[k]) && st.math == Cells(rows[m]);
    CellsPercentile(rows[k], j);
    CellsPercentile(rows[m], j);
    CalculateTotalRejects(Percentile(st.ebrw, j), Percentile(st.math, j));
    CombineRejects(st, j);
  }

  /** The `j`-th data cell, 1 for the 25th percentile up to 3 for the 75th. */
  function Percentile(s: SubScores, j: nat): string
    requires 1 <= j <= 3
  {
    if j == 1 then s.p25 else if j == 2 then s.p50 else s.p75
  }

  lemma CellsPercentile(row: Row, j: nat)
    requires |row.cells| == 4 && 1 <= j <= 3
    ensures Percentile(Cells(row), j) == row.cells[j]
  {
  }

  /** A column that fails to combine makes the three totals fail with the parse error. */
  lemma CombineRejects(st: ScanState, j: nat)
    requires 1 <= j <= 3
    requires CalculateTotal(Percentile(st.ebrw, j), Percentile(st.math, j)).Err?
    ensures CombineTotals(st).Err? && CombineTotals(st).error.MalformedScore?
  {
  }

  lemma CombineNumeric(st: ScanState)
    requires Numeric(st.ebrw.p25) && Numeric(st.ebrw.p50) && Numeric(st.ebrw.p75)
    requires Numeric(st.math.p25) && Numeric(st.math.p50) && Numeric(st.math.p75)
    ensures CombineTotals(st) == Ok(SatTotals(Num(Sum(st.ebrw.p25, st.math.p25)),
                                              Num(Sum(st.ebrw.p50, st.math.p50)),
                                              Num(Sum(st.ebrw.p75, st.math.p75))))
  {
    CalculateTotalOfNumeric(st.ebrw.p25, st.math.p25);
    CalculateTotalOfNumeric(st.ebrw.p50, st.math.p50);
    CalculateTotalOfNumeric(st.ebrw.p75, st.math.p75);
  }

  /**
    Two row sequences whose rows have the same whole text and the same
    cells after the first. Each row's text is kept apart from its cells'
    texts, so a changed first cell here leaves the row's label test alone.
   */
  predicate SameButFirstCells(rows: seq<Row>, rows': seq<Row>) {
    && |rows| == |rows'|
    && forall k :: 0 <= k < |rows| ==>
         && rows[k].text == rows'[k].text
         && |rows[k].cells| == |rows'[k].cells|
         && (|rows[k].cells| > 0 ==> rows[k].cells[1..] == rows'[k].cells[1..])
  }

  lemma {:induction false} ScanIgnoresFirstCell(st: ScanState, rows: seq<Row>, rows': seq<Row>)
    requires SameButFirstCells(rows, rows')
    ensures ScanRows(st, rows) == ScanRows(st, rows')
    decreases |rows|
  {
    if |rows| > 0 {
      var row, row' := rows[0], rows'[0];
      assert DataCells(row) == DataCells(row') by {
        if |row.cells| == 4 {
          assert row.cells[1..][0] == row.cells[1] && row'.cells[1..][0] == row'.cells[1];
          assert row.cells[1..][1] == row.cells[2] && row'.cells[1..][1] == row'.cells[2];
          assert row.cells[1..][2] == row.cells[3] && row'.cells[1..][2] == row'.cells[3];
        }
      }
      assert ScanRow(st, row) == ScanRow(st, row');
      var step := ScanRow(st, row);
      if step.Ok? {
        assert SameButFirstCells(rows[1..], rows'[1..]) by {
          forall k | 0 <= k < |rows| - 1
            ensures rows[1..][k] == rows[k + 1] && rows'[1..][k] == rows'[k + 1]
          {
          }
        }
        ScanIgnoresFirstCell(step.value, rows[1..], rows'[1..]);
      }
    }
  }

  /**
    The first cell is never read as a score: pages whose rows have the same
    whole text and the same later cells extract alike.
   */
  lemma ExtractIgnoresFirstCell(doc: Document, doc': Document)
    requires SameButFirstCells(AllRows(doc.tables), AllRows(doc'.tables))
    ensures ExtractSatScores(doc) == ExtractSatScores(doc')
  {
    ScanTablesFlat(Initial, doc.tables);
    ScanTablesFlat(Initial, doc'.tables);
    ScanIgnoresFirstCell(Initial, AllRows(doc.tables), AllRows(doc'.tables));
  }
}

=== FILE: failures.dfy ===
/**
  Failure-compatible values shared by the whole scraper model.

  The scraper can raise a `ValueError` in two places, from `int()` and from
  tuple unpacking, and nothing in the program catches either; here they
  become an `Err` value that every operation propagates with `:-`. A third
  case stands for a listing page the finite model of the listing does not
  hold; the program itself has no such exception.
 */
module Failures {

  /** A value that may be absent (an HTML element `find` did not locate). */
  datatype Option<+T> = None | Some(value: T)

  /** The conditions that end a crawl. */
  datatype Error =
      /** `int()` rejected the comma-free, trimmed score text it was given. */
    | MalformedScore(text: string)
      /** A matched score row did not unpack into exactly three data cells; `got` is how many it had. */
    | UnpackMismatch(got: nat)
      /**
        The crawl asked for a listing page past the end of the modelled
        listing. The program raises nothing here: this case only records
        that the model's finite listing ran out while every page so far
        showed a next-page link.
       */
    | PageUnavailable(page: nat)

  datatype Result<+T> = Ok(value: T) | Err(error: Error) {

    predicate IsFailure() {
      Err?
    }

    function PropagateFailure<U>(): Result<U>
      requires Err?
    {
      Err(error)
    }

    function Extract(): T
      requires Ok?
    {
      value
    }
  }
}

=== FILE: scores.dfy ===
/**
  Score normalisation: `convert_score` and `calculate_total_sat`.

  A score cell arrives as page text such as "1,200" or " 650 ". It is
  normalised by deleting every comma, trimming surrounding whitespace and
  parsing what is left as a decimal integer. Two sub-scores combine into a
  total unless either is the "No Data" sentinel.
 */
module Scores {
  import opened Failures

  /** The sentinel text the extraction layer leaves in a sub-score no row supplied. */
  const NoDataText: string := "No Data"

  /** A percentile total: a number, or the "No Data" sentinel. */
  datatype Total = Num(n: int) | NoData

  // ---------------------------------------------------------------------------
  // Whitespace and trimming (Python's `str.strip()` with no argument)
  // ---------------------------------------------------------------------------

  /** The characters Python's `str.isspace()` accepts. */
  predicate IsSpace(c: char) {
    || c == ' '
    || ('\t' <= c <= '\r')
    || ('\U{1c}' <= c <= '\U{1f}')
    || c == '\U{85}'
    || c == '\U{a0}'
    || c == '\U{1680}'
    || ('\U{2000}' <= c <= '\U{200a}')
    || c == '\U{2028}'
    || c == '\U{2029}'
    || c == '\U{202f}'
    || c == '\U{205f}'
    || c == '\U{3000}'
  }

  predicate AllSpace(s: string) {
    forall i :: 0 <= i < |s| ==> IsSpace(s[i])
  }

  /** Drops leading whitespace. */
  function TrimStart(s: string): string {
    if |s| > 0 && IsSpace(s[0]) then TrimStart(s[1..]) else s
  }

  /** Drops trailing whitespace. */
  function TrimEnd(s: string): string {
    if |s| > 0 && IsSpace(s[|s| - 1]) then TrimEnd(s[..|s| - 1]) else s
  }

  /** `str.strip()` with no argument; `StripSpec` states exactly what it leaves. */
  function Strip(s: string): (r: string)
    ensures |r| <= |s|
    ensures r == [] || (!IsSpace(r[0]) && !IsSpace(r[|r| - 1]))
  {
    TrimStartSpec(s);
    TrimEndSpec(TrimStart(s));
    var r := TrimEnd(TrimStart(s));
    assert r != [] ==> r[0] == TrimStart(s)[0];
    r
  }

  // ---------------------------------------------------------------------------
  // Comma removal (`str.replace(',', '')`)
  // ---------------------------------------------------------------------------

  /** Deletes every comma and keeps every other character, in order. */
  function RemoveCommas(s: string): (r: string)
    ensures ',' !in r
    ensures ',' !in s ==> r == s
    ensures |r| <= |s|
  {
    if |s| == 0 then []
    else (if s[0] == ',' then [] else [s[0]]) + RemoveCommas(s[1..])
  }

  // ---------------------------------------------------------------------------
  // Decimal integers (`int(text)`, restricted to ASCII digits)
  // ---------------------------------------------------------------------------

  predicate IsDigit(c: char) {
    '0' <= c <= '9'
  }

  predicate AllDigits(s: string) {
    forall i :: 0 <= i < |s| ==> IsDigit(s[i])
  }

  function DigitValue(c: char): nat
    requires IsDigit(c)
  {
    c as int - '0' as int
  }

  /** The value of a run of decimal digits, most significant first. */
  function DigitsValue(s: string): nat
    requires AllDigits(s)
  {
    if |s| == 0 then 0 else DigitsValue(s[..|s| - 1]) * 10 + DigitValue(s[|s| - 1])
  }

  /** What `int()` accepts here: an optional sign followed by at least one ASCII digit. */
  predicate IsIntLiteral(s: string) {
    || (|s| > 0 && AllDigits(s))
    || (|s| > 1 && (s[0] == '+' || s[0] == '-') && AllDigits(s[1..]))
  }

  /** `int(s)` for a string that carries no surrounding whitespace. */
  function ParseInt(s: string): (r: Result<int>)
    ensures r.Ok? <==> IsIntLiteral(s)
    ensures r.Err? ==> r.error == MalformedScore(s)
    ensures r.Ok? && AllDigits(s) ==> r.value == DigitsValue(s)
    ensures r.Ok? && s[0] == '-' ==> r.value == -(DigitsValue(s[1..]) as int)
    ensures r.Ok? && s[0] == '+' ==> r.value == DigitsValue(s[1..])
  {
    var signed := |s| > 0 && (s[0] == '+' || s[0] == '-');
    var digits := if signed then s[1..] else s;
    if |digits| == 0 || !AllDigits(digits) then Err(MalformedScore(s))
    else if signed && s[0] == '-' then Ok(-(DigitsValue(digits) as int))
    else Ok(DigitsValue(digits))
  }

  /** `convert_score`: delete commas, trim whitespace, parse. */
  function ConvertScore(text: string): (r: Result<int>)
    ensures r.Err? ==> r.error.MalformedScore?
  {
    ParseInt(Strip(RemoveCommas(text)))
  }

  // ---------------------------------------------------------------------------
  // Combining two sub-scores (`calculate_total_sat`)
  // ---------------------------------------------------------------------------

  /**
    The total of two sub-score cells. Either sentinel gives `NoData` without
    any parsing; otherwise both are converted (reading/writing first) and a
    conversion failure propagates.
   */
  function CalculateTotal(ebrw: string, math: string): (r: Result<Total>)
    ensures ebrw == NoDataText || math == NoDataText ==> r == Ok(NoData)
    ensures ebrw != NoDataText && math != NoDataText ==>
      (r.Ok? <==> ConvertScore(ebrw).Ok? && ConvertScore(math).Ok?)
    ensures r.Ok? ==> (r.value.Num? <==> ebrw != NoDataText && math != NoDataText)
    ensures r.Ok? && r.value.Num? ==> r.value.n == ConvertScore(ebrw).value + ConvertScore(math).value
    ensures r.Err? ==> r.error.MalformedScore?
  {
    if ebrw != NoDataText && math != NoDataText then
      var e :- ConvertScore(ebrw);
      var m :- ConvertScore(math);
      Ok(Num(e + m))
    else
      Ok(NoData)
  }

  /** A cell text a total can use: not the sentinel, and a valid score. */
  predicate Numeric(text: string) {
    text != NoDataText && ConvertScore(text).Ok?
  }

  /** The total of two numeric sub-scores. */
  function Sum(ebrw: string, math: string): int
    requires Numeric(ebrw) && Numeric(math)
  {
    ConvertScore(ebrw).value + ConvertScore(math).value
  }

  // ---------------------------------------------------------------------------
  // Rendering: the inverse direction, for the round-trip properties
  // ---------------------------------------------------------------------------

  function DigitChar(d: nat): (c: char)
    requires d < 10
    ensures IsDigit(c) && DigitValue(c) == d
  {
    ('0' as int + d) as char
  }

  function Pow10(k: nat): nat {
    if k == 0 then 1 else 10 * Pow10(k - 1)
  }

  /** The shortest decimal spelling of `n`, with no sign and no separators. */
  function Decimal(n: nat): (r: string)
    ensures |r| > 0 && AllDigits(r)
    ensures DigitsValue(r) == n
    ensures r[0] == '0' ==> n == 0
  {
    if n < 10 then [DigitChar(n)]
    else
      var r := Decimal(n / 10) + [DigitChar(n % 10)];
      assert r[..|r| - 1] == Decimal(n / 10);
      r
  }

  /** Exactly three digits, zero-padded, as written between thousands separators. */
  function Pad3(n: nat): (r: string)
    requires n < 1000
    ensures |r| == 3 && AllDigits(r) && DigitsValue(r) == n
  {
    var a := [DigitChar(n / 100)];
    var b := a + [DigitChar(n / 10 % 10)];
    var r := b + [DigitChar(n % 10)];
    assert a[..0] == [] && b[..1] == a && r[..2] == b;
    assert DigitsValue(a) == n / 100;
    assert DigitsValue(b) == n / 100 * 10 + n / 10 % 10;
    assert DigitsValue(r) == DigitsValue(b) * 10 + n % 10;
    assert n / 100 * 10 + n / 10 % 10 == n / 10;
    r
  }

  /** `n` written with a comma between every group of three digits, as in "1,200". */
  function WithSeparators(n: nat): string {
    if n < 1000 then Decimal(n) else WithSeparators(n / 1000) + "," + Pad3(n % 1000)
  }

  // ---------------------------------------------------------------------------
  // Properties
  // ---------------------------------------------------------------------------

  /**
    On one character comma deletion drops a comma and keeps anything else;
    with `RemoveCommasAppend` this fixes `replace(',', '')` on every text,
    keeping the other characters in order.
   */
  lemma RemoveCommasChar(c: char)
    ensures RemoveCommas([c]) == if c == ',' then [] else [c]
  {
  }

  /** Comma deletion distributes over concatenation. */
  lemma {:induction false} RemoveCommasAppend(a: string, b: string)
    ensures RemoveCommas(a + b) == RemoveCommas(a) + RemoveCommas(b)
  {
    if |a| == 0 {
      assert a + b == b;
    } else {
      assert (a + b)[1..] == a[1..] + b;
      RemoveCommasAppend(a[1..], b);
    }
  }

  /** Appending a digit to a value `va * p + vb` shifts both parts one place. */
  lemma ShiftDigit(va: int, p: int, vb: int, d: int)
    ensures (va * p + vb) * 10 + d == va * (p * 10) + (vb * 10 + d)
  { }

  lemma {:induction false} DigitsValueAppend(a: string, b: string)
    requires AllDigits(a) && AllDigits(b)
    ensures AllDigits(a + b)
    ensures DigitsValue(a + b) == DigitsValue(a) * Pow10(|b|) + DigitsValue(b)
  {
    if |b| == 0 {
      assert a + b == a;
    } else {
      var b', d := b[..|b| - 1], DigitValue(b[|b| - 1]);
      assert (a + b)[..|a + b| - 1] == a + b';
      DigitsValueAppend(a, b');
      assert DigitsValue(b) == DigitsValue(b') * 10 + d;
      assert DigitsValue(a + b) == DigitsValue(a + b') * 10 + d;
      ShiftDigit(DigitsValue(a), Pow10(|b'|), DigitsValue(b'), d);
    }
  }

  /** Deleting the separators from a rendering leaves the plain digits of the number. */
  lemma {:induction false} SeparatorsRemoved(n: nat)
    ensures RemoveCommas(WithSeparators(n)) == Decimal(n)
  {
    if n >= 1000 {
      var head := WithSeparators(n / 1000);
      var tail := Pad3(n % 1000);
      assert WithSeparators(n) == head + "," + tail;
      SeparatorDropped(head, tail);
      SeparatorsRemoved(n / 1000);
      GroupAppended(n);
    }
  }

  lemma SeparatorDropped(head: string, tail: string)
    requires AllDigits(tail)
    ensures RemoveCommas(head + "," + tail) == RemoveCommas(head) + tail
  {
    var sep := ",";
    Regroup(head, sep, tail);
    RemoveCommasAppend(head, sep + tail);
    LeadingCommaDropped(sep, tail);
  }

  lemma Regroup(a: string, b: string, c: string)
    ensures a + b + c == a + (b + c)
  {
  }

  lemma LeadingCommaDropped(sep: string, tail: string)
    requires sep == "," && AllDigits(tail)
    ensures RemoveCommas(sep + tail) == tail
  {
    RemoveCommasAppend(sep, tail);
    CommaDropped();
    DigitsKept(tail);
  }

  lemma CommaDropped()
    ensures RemoveCommas(",") == []
  {
  }

  lemma DigitsKept(s: string)
    requires AllDigits(s)
    ensures RemoveCommas(s) == s
  {
    assert ',' !in s by {
      assert !IsDigit(',');
    }
  }

  /** Appending the low three digits, zero-padded, to the spelling of the rest spells the whole number. */
  lemma GroupAppended(n: nat)
    requires n >= 1000
    ensures Decimal(n / 1000) + Pad3(n % 1000) == Decimal(n)
  {
    var head := Decimal(n / 1000);
    var tail := Pad3(n % 1000);
    DigitsValueAppend(head, tail);
    DecimalUnique(head + tail, n);
  }

  /** A digit string without a leading zero (or the single digit "0") is the decimal spelling of its value. */
  lemma {:induction false} DecimalUnique(s: string, n: nat)
    requires |s| > 0 && AllDigits(s) && DigitsValue(s) == n
    requires s[0] == '0' ==> |s| == 1
    ensures s == Decimal(n)
  {
    var last := s[|s| - 1];
    if |s| == 1 {
      assert DigitsValue(s) == DigitValue(last);
      assert s == [DigitChar(n)];
    } else {
      var init := s[..|s| - 1];
      assert init[0] == s[0];
      DigitsValueAppend(init, [last]);
      assert init + [last] == s;
      assert n / 10 == DigitsValue(init) && n % 10 == DigitValue(last);
      if n < 10 {
        DigitsValueNonZero(init);
      }
      DecimalUnique(init, n / 10);
      assert [last] == [DigitChar(n % 10)];
    }
  }

  lemma {:induction false} DigitsValueNonZero(s: string)
    requires |s| > 0 && AllDigits(s) && s[0] != '0'
    ensures DigitsValue(s) >= Pow10(|s| - 1)
  {
    if |s| > 1 {
      var init := s[..|s| - 1];
      assert init[0] == s[0];
      DigitsValueNonZero(init);
    }
  }

  /** What `TrimStart` leaves: a suffix, after a run of whitespace only, that does not start with whitespace. */
  lemma {:induction false} TrimStartSpec(s: string)
    ensures |TrimStart(s)| <= |s| && TrimStart(s) == s[|s| - |TrimStart(s)|..]
    ensures AllSpace(s[..|s| - |TrimStart(s)|])
    ensures TrimStart(s) == [] || !IsSpace(TrimStart(s)[0])
  {
    if |s| > 0 && IsSpace(s[0]) {
      TrimStartSpec(s[1..]);
      var k := |s| - |TrimStart(s)|;
      assert s[..k] == [s[0]] + s[1..][..k - 1];
    }
  }

  /** What `TrimEnd` leaves: a prefix, before a run of whitespace only, that does not end with whitespace. */
  lemma {:induction false} TrimEndSpec(s: string)
    ensures |TrimEnd(s)| <= |s| && TrimEnd(s) == s[..|TrimEnd(s)|]
    ensures AllSpace(s[|TrimEnd(s)|..])
    ensures TrimEnd(s) == [] || !IsSpace(TrimEnd(s)[|TrimEnd(s)| - 1])
  {
    if |s| > 0 && IsSpace(s[|s| - 1]) {
      var s' := s[..|s| - 1];
      TrimEndSpec(s');
      var k := |TrimEnd(s)|;
      assert s[k..] == s'[k..] + [s[|s| - 1]];
    }
  }

  /** `r` is the slice of `s` at `i` with only whitespace before and after it. */
  predicate PaddedAt(s: string, r: string, i: int) {
    && 0 <= i <= |s| - |r|
    && r == s[i..i + |r|]
    && AllSpace(s[..i])
    && AllSpace(s[i + |r|..])
  }

  /** `Strip` keeps the slice of `s` that has only whitespace on either side of it and neither starts nor ends with whitespace. */
  lemma StripSpec(s: string)
    ensures exists i :: PaddedAt(s, Strip(s), i)
    ensures Strip(s) == [] || (!IsSpace(Strip(s)[0]) && !IsSpace(Strip(s)[|Strip(s)| - 1]))
  {
    var t := TrimStart(s);
    var r := TrimEnd(t);
    TrimStartSpec(s);
    TrimEndSpec(t);
    var i := |s| - |t|;
    assert t == s[i..];
    assert r == t[..|r|];
    assert s[i..][..|r|] == s[i..i + |r|];
    assert t[|r|..] == s[i + |r|..];
    assert Strip(s) == r;
    assert PaddedAt(s, r, i);
    assert r != [] ==> r[0] == t[0];
  }

  lemma {:induction false} TrimStartPadded(pre: string, rest: string)
    requires AllSpace(pre)
    requires rest == [] || !IsSpace(rest[0])
    ensures TrimStart(pre + rest) == rest
  {
    if |pre| > 0 {
      assert (pre + rest)[1..] == pre[1..] + rest;
      TrimStartPadded(pre[1..], rest);
    }
  }

  lemma {:induction false} TrimEndPadded(rest: string, post: string)
    requires AllSpace(post)
    requires rest == [] || !IsSpace(rest[|rest| - 1])
    ensures TrimEnd(rest + post) == rest
  {
    if |post| > 0 {
      var post' := post[..|post| - 1];
      assert (rest + post)[..|rest + post| - 1] == rest + post';
      TrimEndPadded(rest, post');
    } else {
      assert rest + post == rest;
    }
  }

  /** Trimming removes exactly the whitespace padding around a core that neither starts nor ends with whitespace. */
  lemma StripPadded(pre: string, core: string, post: string)
    requires AllSpace(pre) && AllSpace(post)
    requires |core| > 0 && !IsSpace(core[0]) && !IsSpace(core[|core| - 1])
    ensures Strip(pre + core + post) == core
  {
    assert pre + core + post == pre + (core + post);
    TrimStartPadded(pre, core + post);
    TrimEndPadded(core, post);
  }

  lemma NoCommaInSpace(s: string)
    requires AllSpace(s)
    ensures RemoveCommas(s) == s
  {
    assert ',' !in s by {
      assert !IsSpace(',');
    }
  }

  /** Comma deletion leaves whitespace padding where it is. */
  lemma PaddingKept(pre: string, x: string, post: string)
    requires AllSpace(pre) && AllSpace(post)
    ensures RemoveCommas(pre + x + post) == pre + RemoveCommas(x) + post
  {
    RemoveCommasAppend(pre + x, post);
    RemoveCommasAppend(pre, x);
    NoCommaInSpace(pre);
    NoCommaInSpace(post);
  }

  /** Comma deletion and trimming undo the thousands separators and any whitespace padding: "1,200" and " 1,200 " both read as 1200. */
  lemma ConvertScoreRoundTrip(n: nat, pre: string, post: string)
    requires AllSpace(pre) && AllSpace(post)
    ensures ConvertScore(pre + WithSeparators(n) + post) == Ok(n)
  {
    var d := Decimal(n);
    var text := pre + WithSeparators(n) + post;
    PaddingKept(pre, WithSeparators(n), post);
    SeparatorsRemoved(n);
    StripPadded(pre, d, post);
    Normalised(text, d);
    DecimalParses(n);
  }

  /** Plain digits padded by whitespace read as their value: " 1200 " reads as 1200. */
  lemma ConvertScorePlain(n: nat, pre: string, post: string)
    requires AllSpace(pre) && AllSpace(post)
    ensures ConvertScore(pre + Decimal(n) + post) == Ok(n)
  {
    var d := Decimal(n);
    var text := pre + d + post;
    PaddingKept(pre, d, post);
    DigitsKept(d);
    StripPadded(pre, d, post);
    Normalised(text, d);
    DecimalParses(n);
  }

  /** A leading minus sign survives normalisation: "-1,200" reads as -1200. */
  lemma ConvertScoreNegative(n: nat, pre: string, post: string)
    requires AllSpace(pre) && AllSpace(post)
    ensures ConvertScore(pre + ("-" + WithSeparators(n)) + post) == Ok(-(n as int))
  {
    var d := Decimal(n);
    var core := "-" + d;
    var text := pre + ("-" + WithSeparators(n)) + post;
    PaddingKept(pre, "-" + WithSeparators(n), post);
    SignKept(WithSeparators(n));
    SeparatorsRemoved(n);
    StripPadded(pre, core, post);
    Normalised(text, core);
    NegativeParses(n);
  }

  /** `ConvertScore` parses whatever comma deletion and trimming leave. */
  lemma Normalised(text: string, core: string)
    requires Strip(RemoveCommas(text)) == core
    ensures ConvertScore(text) == ParseInt(core)
  {
  }

  lemma DecimalParses(n: nat)
    ensures ParseInt(Decimal(n)) == Ok(n)
  {
  }

  lemma NegativeParses(n: nat)
    ensures ParseInt("-" + Decimal(n)) == Ok(-(n as int))
  {
    var core := "-" + Decimal(n);
    assert core[1..] == Decimal(n);
    assert !AllDigits(core) by { assert !IsDigit(core[0]); }
  }

  lemma SignKept(x: string)
    ensures RemoveCommas("-" + x) == "-" + RemoveCommas(x)
  {
    RemoveCommasAppend("-", x);
  }

  /** Texts whose comma-free, trimmed form is not an integer literal are rejected, never defaulted. */
  lemma ConvertScoreRejects()
    ensures ConvertScore("") == Err(MalformedScore(""))
    ensures ConvertScore(",") == Err(MalformedScore(""))
    ensures ConvertScore(" - ") == Err(MalformedScore("-"))
  {
    StripPadded(" ", "-", " ");
    assert " " + "-" + " " == " - ";
  }

  /** The sentinel itself is not a number: calling the converter on it would fail. */
  lemma ConvertScoreRejectsSentinel()
    ensures ConvertScore(NoDataText) == Err(MalformedScore(NoDataText))
  {
    SentinelHasNoComma();
    SentinelIsTrimmed();
    SentinelIsNotLiteral();
  }

  lemma SentinelHasNoComma()
    ensures RemoveCommas(NoDataText) == NoDataText
  {
  }

  lemma SentinelIsTrimmed()
    ensures Strip(NoDataText) == NoDataText
  {
    var e: string := [];
    StripPadded(e, NoDataText, e);
    assert e + NoDataText + e == NoDataText;
  }

  lemma SentinelIsNotLiteral()
    ensures ParseInt(NoDataText) == Err(MalformedScore(NoDataText))
  {
    assert !IsIntLiteral(NoDataText) by {
      assert !IsDigit(NoDataText[0]);
    }
  }

  lemma SeparatedExample()
    ensures WithSeparators(1200) == "1,200"
  {
    assert DigitChar(0) == '0' && DigitChar(1) == '1' && DigitChar(2) == '2';
    assert Pad3(200) == "200";
    assert WithSeparators(1) == "1";
  }

  lemma PlainExample()
    ensures " " + Decimal(1200) + " " == " 1200 "
  {
    assert DigitChar(0) == '0' && DigitChar(1) == '1' && DigitChar(2) == '2';
    assert Decimal(1) == "1";
    assert Decimal(12) == "12";
    assert Decimal(120) == "120";
  }

  /** `convert_score` reads "1,200" and " 1200 " alike, as 1200. */
  lemma ConvertScoreExamples()
    ensures ConvertScore("1,200") == Ok(1200)
    ensures ConvertScore(" 1200 ") == Ok(1200)
  {
    ConvertScoreRendered(1200);
    SeparatedExample();
    ConvertScorePlain(1200, " ", " ");
    PlainExample();
  }

  /** Two rendered sub-scores combine into the sum of the numbers they render. */
  lemma CalculateTotalOfRendered(ebrw: nat, math: nat)
    ensures CalculateTotal(WithSeparators(ebrw), WithSeparators(math)) == Ok(Num(ebrw + math))
  {
    var e, m := WithSeparators(ebrw), WithSeparators(math);
    RenderedIsNumeric(ebrw);
    RenderedIsNumeric(math);
    CalculateTotalOfValues(e, m, ebrw, math);
  }

  lemma RenderedIsNumeric(n: nat)
    ensures Numeric(WithSeparators(n)) && ConvertScore(WithSeparators(n)).value == n
  {
    ConvertScoreRendered(n);
    RenderedIsNotSentinel(n);
  }

  lemma CalculateTotalOfValues(ebrw: string, math: string, e: int, m: int)
    requires Numeric(ebrw) && Numeric(math)
    requires ConvertScore(ebrw).value == e && ConvertScore(math).value == m
    ensures CalculateTotal(ebrw, math) == Ok(Num(e + m))
  {
    CalculateTotalOfNumeric(ebrw, math);
  }

  /** Two sub-scores that are not the sentinel but do not both convert make the total fail. */
  lemma CalculateTotalRejects(ebrw: string, math: string)
    requires ebrw != NoDataText && math != NoDataText
    requires ConvertScore(ebrw).Err? || ConvertScore(math).Err?
    ensures CalculateTotal(ebrw, math).Err? && CalculateTotal(ebrw, math).error.MalformedScore?
  {
  }

  /** Two numeric sub-scores combine into the sum of their values. */
  lemma CalculateTotalOfNumeric(ebrw: string, math: string)
    requires Numeric(ebrw) && Numeric(math)
    ensures CalculateTotal(ebrw, math) == Ok(Num(Sum(ebrw, math)))
  {
  }

  lemma ConvertScoreRendered(n: nat)
    ensures ConvertScore(WithSeparators(n)) == Ok(n)
  {
    var s := WithSeparators(n);
    var e: string := [];
    assert e + s + e == s;
    ConvertScoreRoundTrip(n, e, e);
  }

  lemma RenderedIsNotSentinel(n: nat)
    ensures WithSeparators(n) != NoDataText
  {
    SeparatorsRemoved(n);
    SentinelHasNoComma();
    assert !IsDigit(NoDataText[0]);
  }

  /** Two sub-scores of 700 combine into a total of 1400. */
  lemma CalculateTotalExample()
    ensures CalculateTotal("700", "700") == Ok(Num(1400))
  {
    CalculateTotalOfRendered(700, 700);
    RenderedExample();
  }

  lemma RenderedExample()
    ensures WithSeparators(700) == "700"
  {
    assert DigitChar(7) == '7' && DigitChar(0) == '0';
    assert Decimal(7) == "7";
    assert Decimal(70) == "70";
  }
}

=== FILE: storage.dfy ===
/**
  `store_in_database`: the `college_scores` table with first-write-wins
  de-duplication by college name.

  The table is a sequence of rows in insertion order. A row is inserted
  only when no row with the same college name exists; otherwise the call
  leaves the table as it was, so the first data stored under a name is the
  data that stays.
 */
module Storage {
  import opened Failures
  import opened Extraction

  /** One row of `college_scores`: a name and the three percentile totals. */
  datatype CollegeData = CollegeData(name: string, totals: SatTotals)

  type CollegeScores = seq<CollegeData>

  /** The names the table holds a row for. */
  function Names(t: CollegeScores): set<string> {
    set i | 0 <= i < |t| :: t[i].name
  }

  /**
    A row stored under `name`, if there is one: the model of `SELECT * … WHERE
    college_name = ?` followed by `fetchone()`. SQLite fixes no row order
    without `ORDER BY`, and `store_in_database` only tests whether a row
    exists, so only `Lookup(t, name).Some?` matters to the program; the
    model takes the earliest row.
   */
  function Lookup(t: CollegeScores, name: string): (r: Option<CollegeData>)
    ensures r.Some? ==> r.value in t && r.value.name == name
  {
    if |t| == 0 then None
    else if t[0].name == name then Some(t[0])
    else Lookup(t[1..], name)
  }

  /** How many rows carry `name`. */
  function Count(t: CollegeScores, name: string): nat {
    if |t| == 0 then 0
    else (if t[0].name == name then 1 else 0) + Count(t[1..], name)
  }

  /** The rows stored under `name`, in table order. */
  function Named(t: CollegeScores, name: string): CollegeScores {
    if |t| == 0 then []
    else (if t[0].name == name then [t[0]] else []) + Named(t[1..], name)
  }

  /** No two rows share a college name. */
  predicate UniqueNames(t: CollegeScores) {
    forall i, j :: 0 <= i < j < |t| ==> t[i].name != t[j].name
  }

  /**
    `store_in_database`: append `d` unless a row with its name already
    exists. Existing rows are never changed, the name is always present
    afterwards, and the row stored under it is the one that was there first.
   */
  function StoreInDatabase(t: CollegeScores, d: CollegeData): (r: CollegeScores)
    ensures |r| == if d.name in Names(t) then |t| else |t| + 1
    ensures r[..|t|] == t
    ensures Names(r) == Names(t) + {d.name}
    ensures Lookup(r, d.name) == if d.name in Names(t) then Lookup(t, d.name) else Some(d)
  {
    LookupFindsKnown(t, d.name);
    if Lookup(t, d.name).Some? then t
    else
      LookupAppend(t, [d], d.name);
      t + [d]
  }

  /** Stores each record in turn, as the crawl does for every college page it reads. */
  function StoreAll(t: CollegeScores, ds: seq<CollegeData>): CollegeScores
    decreases |ds|
  {
    if |ds| == 0 then t else StoreAll(StoreInDatabase(t, ds[0]), ds[1..])
  }

  // ---------------------------------------------------------------------------
  // Properties
  // ---------------------------------------------------------------------------

  /** The lookup finds a row exactly when the name is among the table's names. */
  lemma {:induction false} LookupFindsKnown(t: CollegeScores, name: string)
    ensures Lookup(t, name).Some? <==> name in Names(t)
  {
    if |t| > 0 {
      LookupFindsKnown(t[1..], name);
      NamesCons(t);
    }
  }

  lemma NamesCons(t: CollegeScores)
    requires |t| > 0
    ensures Names(t) == {t[0].name} + Names(t[1..])
  {
    forall n | n in Names(t)
      ensures n in {t[0].name} + Names(t[1..])
    {
      var i :| 0 <= i < |t| && t[i].name == n;
      if i > 0 {
        assert t[1..][i - 1].name == n;
      }
    }
    forall n | n in Names(t[1..])
      ensures n in Names(t)
    {
      var i :| 0 <= i < |t[1..]| && t[1..][i].name == n;
      assert t[i + 1].name == n;
    }
  }

  /** Appending rows does not change what an existing name looks up to. */
  lemma {:induction false} LookupAppend(t: CollegeScores, u: CollegeScores, name: string)
    ensures Lookup(t + u, name) == if Lookup(t, name).Some? then Lookup(t, name) else Lookup(u, name)
  {
    if |t| == 0 {
      assert t + u == u;
    } else {
      assert (t + u)[0] == t[0];
      assert (t + u)[1..] == t[1..] + u;
      LookupAppend(t[1..], u, name);
    }
  }

  lemma {:induction false} NamedAppend(t: CollegeScores, u: CollegeScores, name: string)
    ensures Named(t + u, name) == Named(t, name) + Named(u, name)
  {
    if |t| == 0 {
      assert t + u == u;
    } else {
      assert (t + u)[1..] == t[1..] + u;
      NamedAppend(t[1..], u, name);
    }
  }

  /** A table with unique names holds at most one row per name. */
  lemma {:induction false} UniqueCountAtMostOne(t: CollegeScores, name: string)
    requires UniqueNames(t)
    ensures Count(t, name) == if name in Names(t) then 1 else 0
  {
    if |t| > 0 {
      NamesCons(t);
      assert UniqueNames(t[1..]) by {
        forall i, j | 0 <= i < j < |t[1..]|
          ensures t[1..][i].name != t[1..][j].name
        {
          assert t[1..][i] == t[i + 1] && t[1..][j] == t[j + 1];
        }
      }
      UniqueCountAtMostOne(t[1..], name);
      if t[0].name == name {
        forall j | 0 <= j < |t[1..]|
          ensures t[1..][j].name != name
        {
          assert t[1..][j] == t[j + 1];
        }
      }
    }
  }

  /** Storing keeps the table free of duplicate names. */
  lemma StoreKeepsUnique(t: CollegeScores, d: CollegeData)
    requires UniqueNames(t)
    ensures UniqueNames(StoreInDatabase(t, d))
  {
    var r := StoreInDatabase(t, d);
    if d.name !in Names(t) {
      assert r == t + [d];
      forall i | 0 <= i < |t|
        ensures t[i].name != d.name
      {
        assert t[i].name in Names(t);
      }
    }
  }

  /** After a store into a table with unique names, exactly one row carries the stored name. */
  lemma StoreLeavesExactlyOne(t: CollegeScores, d: CollegeData)
    requires UniqueNames(t)
    ensures Count(StoreInDatabase(t, d), d.name) == 1
  {
    StoreKeepsUnique(t, d);
    UniqueCountAtMostOne(StoreInDatabase(t, d), d.name);
  }

  /** Storing a record a second time, or any record under a name already stored, changes nothing. */
  lemma StoreIdempotent(t: CollegeScores, d: CollegeData, e: CollegeData)
    requires e.name == d.name
    ensures StoreInDatabase(StoreInDatabase(t, d), e) == StoreInDatabase(t, d)
  {
  }

  /** Rows stored under every other name are exactly what they were. */
  lemma StoreLeavesOthers(t: CollegeScores, d: CollegeData, name: string)
    requires name != d.name
    ensures Named(StoreInDatabase(t, d), name) == Named(t, name)
    ensures Lookup(StoreInDatabase(t, d), name) == Lookup(t, name)
  {
    if d.name !in Names(t) {
      NamedAppend(t, [d], name);
      LookupAppend(t, [d], name);
    }
  }

  /** Storing a sequence of records keeps, for every name, the first record ever offered under it. */
  lemma {:induction false} StoreAllFirstWins(t: CollegeScores, ds: seq<CollegeData>, name: string)
    ensures Lookup(StoreAll(t, ds), name) == Lookup(t + ds, name)
    decreases |ds|
  {
    if |ds| > 0 {
      var t' := StoreInDatabase(t, ds[0]);
      StoreAllFirstWins(t', ds[1..], name);
      LookupAppend(t', ds[1..], name);
      LookupAppend(t, ds, name);
      LookupAppend([ds[0]], ds[1..], name);
      assert [ds[0]] + ds[1..] == ds;
      if name != ds[0].name {
        StoreLeavesOthers(t, ds[0], name);
      }
    } else {
      assert t + ds == t;
    }
  }

  /** Storing a sequence of records keeps the table free of duplicate names and never changes a row already there. */
  lemma {:induction false} StoreAllKeepsUnique(t: CollegeScores, ds: seq<CollegeData>)
    requires UniqueNames(t)
    ensures UniqueNames(StoreAll(t, ds))
    ensures |StoreAll(t, ds)| >= |t| && StoreAll(t, ds)[..|t|] == t
    decreases |ds|
  {
    if |ds| > 0 {
      var t' := StoreInDatabase(t, ds[0]);
      StoreKeepsUnique(t, ds[0]);
      StoreAllKeepsUnique(t', ds[1..]);
      var r := StoreAll(t', ds[1..]);
      assert r[..|t|] == r[..|t'|][..|t|];
    }
  }
}
